=== FILE: README.md ===
# maxbib search core in Dafny

maxbib is a terminal program for searching a library of references. Each
reference is a YAML record. The program is built from three parts, and this
project models and proves properties of all three:

- **Flattening.** `QueryData::build` (`src/query.rs`) turns each YAML record
  into a fixed number of searchable strings. There is one string per *group*
  of field names: the group's field values joined with newlines, then cut to
  1024. The record's index becomes its `id`.
- **Ranking.** `rank_query` and `rank_query_weighted` (`src/search.rs`) score
  one record against the text of the query boxes. Each box is fuzzy-matched
  against the string at the same index. Each raw score goes through
  `score_map`, and the results are summed as `f64`. A box that does not match
  makes the sum NaN.
- **The app's search coordinator** (`src/app.rs`). It keeps the query boxes
  and which box is selected.
  - Every edit sets `search_queued`.
  - On a tick, a queued search launches a background scan, stamped with the
    current `search_number`. The scan filters out NaN ranks and sorts stably
    by decreasing rank.
  - `check_for_search_results` accepts a delivered result only if its
    generation is at least the visible one. It then brings the highlighted row
    back into range.
  - When the user leaves, `run` returns the `id` of the highlighted row.

How the model represents things:

- **Strings.** Dafny strings (sequences of Unicode scalar values). `String::len`
  and `String::truncate` count UTF-8 bytes, and that is modelled exactly in
  module `Text` (`Utf8Width`, `ByteLen`, `Truncate`). A cut inside a character
  is Rust's panic; it appears as `None`, so `Query.Build` returns an `Option`.
- **The external matcher and `score_map`.** These are the two arrow fields of
  a `Search.Scorer`: a matcher giving `Some(raw score)` or `None` for no
  match, and the score map. `f64` is modelled as `real` and NaN as `None`.
  NaN absorbs every sum (`Search.Add`, `Search.Sum`).
- **The app.** An immutable `AppState.App` with one field per struct field.
  It also holds `pending`, the scans launched and not yet delivered, each a
  `Job` with its generation and the snapshot it was given.
- **Threads.** A `Step` is a key, a tick, or the delivery of any one pending
  job, in any order. Delivering a job runs the body of the loop in
  `check_for_search_results` on its result.
- **The worker body.** The state machine takes the worker as a parameter
  (`ScanFn`). The program's worker is `AppState.Worker(sc)`, which is
  `Scan.ScanResults` with the program's scorer.
- **Panics.** Among the modelled operations, the panics below become `Fault`
  values in an `Outcome`; the truncation panic is the `None` of `Query.Build`,
  and the panics of `render` are left out:
  - the `% 0` in `increment_search_category` with no categories;
  - the `usize` underflows of a debug build in `decrement_search_category` and
    `decrement_selected`.

The central invariant is `AppInvariants.Valid`. It covers:

- the highlighted row is in range;
- the selected box is a category;
- the scans in flight carry increasing generations below `search_number`;
- `Fresh`: once no edit is waiting, the newest scan looked at the current
  boxes, and either it is still in flight or its result is the one shown.

Every run from the start state keeps it (`AppInvariants.RunValid`). From that
follow the properties of whole runs in `AppProperties`:

- after a run with no queued edit and nothing in flight, the list shown is
  exactly the ranking of the current boxes;
- with a category, a run has no panic in the modelled operations;
- the returned id is that of a record the program was started with;
- an older scan finishing late never replaces a newer one.

## Model

| member | source | states |
|---|---|---|
| `Text.Truncate` | src/query.rs:33 | A string within the limit is kept whole. Otherwise the result, when defined, is a prefix of exactly `n` bytes. `None` is Rust's panic. |
| `Text.TruncateDefined` | src/query.rs:33 | The truncation panics exactly when the string is over the limit and byte `n` is not a character boundary. |
| `Text.TruncateAscii` | src/query.rs:33 | On ASCII text the byte cut never panics and keeps the first `min(len, n)` characters. |
| `Query.FieldText` | src/query.rs:26-29 | A field contributes its string value. An absent field contributes the empty string, and so does a field holding a non-string. |
| `Query.BuildGroup` | src/query.rs:23-35 | A group's string is a prefix of the newline-joined field texts and at most 1024 bytes long. It is the whole text when that fits, and exactly 1024 bytes when it is cut. |
| `Query.BuildStrings` | src/query.rs:21-36 | All groups build exactly when each one does, giving one string per group in order. |
| `Query.Build` | src/query.rs:20-41 | `build` succeeds exactly when no group's cut panics. The id is kept, there is one string per group, and each string is that group's string. |
| `Query.BuildShape` | src/query.rs:37-45 | A built record's `len` is the number of groups, and every string fits the 1024-byte limit. |
| `Query.BuildNoGroups` | src/query.rs:55-62 | Building with no groups gives the `Default` record carrying the given id. |
| `Query.BuildEmptyGroup` | src/query.rs:24-34 | An empty group builds to the empty string. |
| `Query.BuildAscii` | src/query.rs:20-41 | For ASCII fields, `build` never panics and each string is the first `min(len, 1024)` characters of its group's text. |
| `Query.GroupTextSplits` | src/query.rs:24-31 | For a non-empty group, splitting its text on newlines gives back the field texts, when no field contains a newline. |
| `Query.BuildTwoFields` | src/query.rs:71-97 | Two groups over a record with short ASCII title and author fields (`2*|title| + |author| + 2` at most 1024) build to `title\nauthor` and `author\ntitle\ntitle`, the shape of the test `querydata_builds_correctly_multiples`. |
| `Query.BuildExampleTruncates` | src/query.rs:100-109 | A group repeating a 1050-character field builds to 1024 `a`s, as the test `querydata_build_truncates_to_1024_chars` expects. |
| `Query.BuildPanicsOnSplitChar` | src/query.rs:33 | As written, 1023 ASCII characters followed by a non-ASCII character make `build` panic. |
| `Query.BuildGroupChars` | src/query.rs:33 | The corrected cut counts characters. It never fails, and it keeps the text when that fits and its first 1024 characters otherwise. |
| `Query.BuildChars` | src/query.rs:20-41 | The corrected build is total, keeps the id, and gives one string per group, each the group's corrected string. |
| `Query.BuildGroupCharsFits` | src/query.rs:30-34 | A group whose text fits in 1024 bytes builds to the same string under the byte cut and the character cut, whatever characters it holds. |
| `Query.BuildCharsAgrees` | src/query.rs:20-41 | On ASCII fields the corrected build and the code's build give the same record. |
| `Query.BuildCharsLimit` | src/query.rs:33 | The corrected build keeps a group of at most 1024 characters and cuts a longer one to exactly its first 1024. |
| `Search.Sum` | src/search.rs:24 | The `f64` sum is NaN exactly when some term is NaN. |
| `Search.PairScore` | src/search.rs:19-22 | A box contributes NaN exactly when the matcher reports no match. |
| `Search.RankQueryUndefined` | src/search.rs:14-25 | The rank is NaN exactly when some considered box fails to match. Only the first `min(boxes, strings)` pairs are considered. |
| `Search.RankQueryValue` | src/search.rs:14-25 | When every considered box matches, the rank is the in-order sum of the mapped scores. With no pairs it is 0. |
| `Search.RankQueryIgnoresExtra` | src/search.rs:15-17 | Boxes or strings beyond the shorter side do not affect the rank. |
| `Search.RankQueryBounded` | src/search.rs:9-25 | With a score map into (0, 1), a defined rank over `n > 0` pairs lies strictly between 0 and `n`. |
| `Search.RankQueryWeightedUndefined` | src/search.rs:28-44 | The weighted rank is NaN exactly when some box among the first `min(boxes, strings, weights)` fails to match. |
| `Search.RankQueryWeightedValue` | src/search.rs:28-44 | When all considered boxes match, the weighted rank is the in-order sum of each mapped score times its weight. |
| `Search.RankQueryWeightedUnit` | src/search.rs:28-44 | Unit weights, at least one per considered pair, give the unweighted rank. |
| `Scan.Scored` | src/app.rs:193-200 | The filtered list holds exactly the records whose rank is not NaN, each paired with its rank. |
| `Scan.SortDesc` | src/app.rs:201 | The sort returns a permutation of its input, ordered by non-increasing score. |
| `Scan.ScanResults` | src/app.rs:189-204 | The list a worker sends is sorted by decreasing score and is a permutation of the filtered ranked records. |
| `Scan.SortStable` | src/app.rs:201 | The sort is stable: entries with equal scores keep their input order. |
| `Scan.StableSortUnique` | src/app.rs:201 | Any sorted sequence with the same per-score subsequences equals the model's sort. So `sort_by`'s stable merge sort gives the same list. |
| `Scan.ScoredAppend` | src/app.rs:193-200 | The filter keeps `data` order: filtering two stretches of records in turn gives the same list as filtering them together. |
| `Scan.ScanContents` | src/app.rs:193-201 | A record is in the scan exactly when its rank is defined, with that rank. Each score class is in the order of `Scan.Scored`, which is `data` order by `Scan.ScoredAppend`. |
| `Scan.ScanTiesById` | src/app.rs:193-201 | When record ids increase along `data`, the scan orders equal scores by increasing id. |
| `Scan.ScanExcludesUnmatched` | src/app.rs:193-200 | With one matching and one non-matching record, the scan lists only the matching one. |
| `Editing.PopPush` | src/app.rs:147-154 | `pop` undoes `push`. |
| `Editing.RemoveWordShape` | src/app.rs:159-178 | `remove_word` drops trailing whitespace and then the last word, and keeps the whitespace before that word. Text that is all whitespace becomes empty. |
| `Editing.RemoveWordUnique` | src/app.rs:159-178 | That description admits exactly one result, so it specifies `remove_word` completely. |
| `Editing.RemoveWordLoop` | src/app.rs:160-177 | The popping loop, with its in-word flag, computes that result and leaves a prefix of the box. |
| `Editing.RemoveWordAfterWord` | src/app.rs:159-178 | Removing a word typed after whitespace, or into an empty box, restores the text from before it. |
| `AppState.From` | src/app.rs:31-40 | The app starts with one empty box per string of the first record (none without records). Nothing is ranked, selected or queued. |
| `AppState.IncrementSearchCategory` | src/app.rs:114-116 | Moves to the next box and wraps to 0. It panics (`% 0`) exactly when there are no categories. |
| `AppState.DecrementSearchCategory` | src/app.rs:118-123 | Moves to the previous box and wraps to the last. It underflows exactly at box 0 with no categories. |
| `AppState.IncrementSelected` | src/app.rs:125-133 | Nothing selected stays nothing. A row `i` in range moves to `(i + 1) mod len`. |
| `AppState.DecrementSelected` | src/app.rs:135-143 | Nothing selected stays nothing, and a row `i` in range moves to `(i + len - 1) mod len`. Only `Some(0)` on an empty list underflows. |
| `AppState.EditSelectedBox` | src/app.rs:145-178 | An edit changes only the selected box and queues a search. With no such box, nothing at all changes. |
| `AppState.ClearAllSearches` | src/app.rs:180-185 | Every box is emptied, their number is kept, and a search is queued. |
| `AppState.OnTick` | src/app.rs:96-101 | A tick with a queued search launches a scan stamped with the current number. It then advances the number and clears the flag. Otherwise a tick changes nothing. |
| `AppState.Reconcile` | src/app.rs:216-232 | The new selection is in range. Nothing selected becomes the first row, a row past the end becomes the last row, and an empty list clears it. |
| `AppState.AcceptResult` | src/app.rs:213-233 | A result at least as new as the visible one replaces it, and the selection becomes `Reconcile` of the old selection and the new list's length. An older one changes nothing. |
| `AppState.CheckForSearchResults` | src/app.rs:209-235 | After draining, the visible generation is at least the old one and at least every drained one. The visible list is the old one or one of those delivered. |
| `AppState.DeliverJob` | src/app.rs:188-233 | A delivered job leaves `pending`. Its scan becomes visible, with the selection reconciled to the new list's length, unless the visible generation is newer, in which case only `pending` changes. |
| `AppState.SelectedId` | src/app.rs:106-112 | The exit value is `Ok(id)` of the highlighted row exactly when a row is highlighted and in range, and an error otherwise. |
| `AppInvariants.StartValid` | src/app.rs:31-57 | The state the loop starts in satisfies the invariant. |
| `AppInvariants.EditValid` | src/app.rs:145-178 | Every box edit keeps the invariant. |
| `AppInvariants.TickValid` | src/app.rs:96-101 | A tick keeps the invariant, and a launched scan's generation exceeds every generation still in flight. |
| `AppInvariants.DeliverWellFormed` | src/app.rs:209-235 | A delivery keeps the scans in flight in increasing generation order, below the search number, on the app's data. |
| `AppInvariants.DeliverFresh` | src/app.rs:209-235 | A delivery keeps the visible result fresh: once no edit is waiting, the current boxes' scan is in flight or shown. |
| `AppInvariants.DeliverValid` | src/app.rs:209-235 | A delivery keeps the invariant. |
| `AppInvariants.NavigationValid` | src/app.rs:114-143 | Moving the selection keeps the invariant, and so does moving between boxes. Under it, `decrement_selected` never underflows. |
| `AppInvariants.HandleKeyValid` | src/app.rs:62-95 | A key keeps the invariant, leaves the app unchanged on exit, and panics only with no categories. |
| `AppInvariants.NextValid` | src/app.rs:59-104 | One loop step keeps the invariant and panics only with no categories. |
| `AppInvariants.RunValid` | src/app.rs:59-105 | Any run keeps the invariant and panics only when there are no categories. |
| `AppProperties.SelectionRoundTrip` | src/app.rs:125-143 | With the row in range, one step down then up gives back the same state, and so does one step up then down. |
| `AppProperties.SelectionCycle` | src/app.rs:125-133 | From a highlighted row `i` in range, `k` steps down land on row `(i + k) mod len`. |
| `AppProperties.SelectionFullCycle` | src/app.rs:125-133 | From a highlighted row in range, `len` steps down come back to the same row. |
| `AppProperties.CategoryRoundTrip` | src/app.rs:114-123 | When the selected box is one of the categories, next box then previous box gives back the same state, and so does previous then next. |
| `AppProperties.AddThenRemoveLetter` | src/app.rs:145-157 | When the selected box exists, typing a character and then Backspace restores the boxes, with a search queued. |
| `AppProperties.TypeWordAppends` | src/app.rs:152-157 | Typing a non-empty word with one `add_letter` per character is the same as one edit appending the whole word: when the selected box exists, the word is appended to it and a search is queued, and otherwise nothing changes. |
| `AppProperties.AddWordThenRemoveWord` | src/app.rs:152-178 | Ctrl-w right after typing a whitespace-free word, letter by letter, onto whitespace or an empty box restores the boxes. |
| `AppProperties.ClearAllIdempotent` | src/app.rs:180-185 | Clearing twice is the same as clearing once. |
| `AppProperties.ReconcileExamples` | src/app.rs:216-232 | `Some(3)` with 2 rows gives `Some(1)`, with 0 rows `None`, and `None` with 5 rows gives `Some(0)`. |
| `AppProperties.NewestResultWins` | src/app.rs:209-235 | In any arrival order, a result strictly newer than the others and not older than the visible one ends up visible. |
| `AppProperties.KeepsNewest` | src/app.rs:213-214 | Results all older than the visible one leave the app unchanged. |
| `AppProperties.StaleResultDropped` | src/app.rs:209-235 | If scan 2's result arrives before scan 1's, scan 2's list stays visible. |
| `AppProperties.NextRankedMonotone` | src/app.rs:59-104 | A step never makes the visible generation older, and never changes the records or the categories. |
| `AppProperties.RunRankedMonotone` | src/app.rs:59-105 | Over a run the visible generation only grows, and the records and categories stay fixed. |
| `AppProperties.RunShowsCurrentSearch` | src/app.rs:57-104 | With at least one category no modelled operation of a run panics. Once nothing is queued or in flight, the list shown is the scan of the current boxes. |
| `AppProperties.WorkerListsOwnRecords` | src/app.rs:193-200 | The worker lists only records it was given. |
| `AppProperties.NextRowsFromData` | src/app.rs:209-235 | A step keeps every visible row a record of the app's data. |
| `AppProperties.RunRowsFromData` | src/app.rs:59-105 | A run keeps every visible row a record of the app's data. |
| `AppProperties.ExitReturnsRecordId` | src/app.rs:106-112 | When the user leaves, an id comes back exactly when a row is highlighted, and it is the id of a record the program was started with. |
| `AppProperties.ProgramShowsRanking` | src/app.rs:187-235 | With at least one category, once nothing is queued or in flight, the visible list is sorted best first and holds exactly the records with a defined rank, each with that rank. |

## Left out

- Rendering, the terminal, and the event thread are not modelled. That covers `render`, raw mode, `src/event.rs`, and `into_paragraph` (a display helper). Keys and ticks arrive as a sequence of `Step`s.
- Threads and the channel are not modelled. A launched scan is a `Job`. Each `Deliver` step is one message taken from the channel, in any order. `Continue` is used when the step asked for no pending job, which stands for an empty channel.
- Loading the library (`src/library.rs`) is not modelled, and neither are `main`'s printing and its exact group list (`src/main.rs`). `Query.Value` keeps only what `build` reads: strings, mappings with string keys, and everything else.
- The fuzzy matcher from the `rff` crate is not modelled: it is an uninterpreted field of `Scorer`. The matched-string part of its return value is dropped, since rank never reads it.
- `score_map` (the logistic function) is uninterpreted, because `exp` on `f64` has no exact counterpart in Dafny's reals. Its range (0, 1) is the assumption `MapsIntoUnit` of `Search.RankQueryBounded`. That strict bound holds for the logistic function on reals only: on `f64`, `1.0/(1.0+(-x).exp())` rounds to exactly 1.0 for x above about 37 and to exactly 0.0 for x below about -709.78, where `(-x).exp()` overflows to infinity, so a rank can equal 0 or n. Monotonicity and `score_map(0) = 0.5` are not stated.
- `f64` rounding is not modelled: sums are exact on `real`, and only NaN propagation is modelled.
- `Search.RankQueryWeightedUnit`: equality with the plain rank is exact on reals. On `f64` it also holds, because multiplying by 1.0 is exact.
- `search_number` is unbounded here. The `usize` wrap after 2^64 launches is not modelled.
- Underflow in `decrement_search_category` and `decrement_selected` is modelled as the panic of a debug build. The wrap-around of a release build is not modelled.
- `HandleKey` has no row of its own. Its cases are stated through `AppInvariants.HandleKeyValid` and the navigation and edit members.
- `Search.RankQuery` has no row of its own: its contract is stated by `Search.RankQueryUndefined`, `Search.RankQueryValue`, `Search.RankQueryIgnoresExtra` and `Search.RankQueryBounded`.
- `Search.RankQueryWeighted` has no row of its own: its contract is stated by `Search.RankQueryWeightedUndefined`, `Search.RankQueryWeightedValue` and `Search.RankQueryWeightedUnit`.
- `AppState.AddLetter` has no row of its own: it is `AppState.EditSelectedBox` with `Editing.Push`, and `AppProperties.AddThenRemoveLetter` and `AppProperties.TypeWordAppends` state what it does.
- `AppState.RemoveLetter` has no row of its own: it is `AppState.EditSelectedBox` with `Editing.Pop`, and `AppProperties.AddThenRemoveLetter` states that it undoes a letter.
- `AppState.RemoveWord` has no row of its own: it is `AppState.EditSelectedBox` with `Editing.RemoveWordText`, whose result `Editing.RemoveWordShape`, `Editing.RemoveWordUnique` and `Editing.RemoveWordLoop` state, and `AppProperties.AddWordThenRemoveWord` states it on the app.
- `AppState.RunQuery` has no row of its own: its effect is stated by `AppState.OnTick`, its only caller, and by `AppInvariants.TickValid`.
- `AppState.Start` has no row of its own: `AppInvariants.StartValid` states that it satisfies the invariant, and `AppState.From` states its fields.
- `AppState.Worker` has no row of its own: it is `Scan.ScanResults` with the program's scorer, which `Scan.ScanResults`, `Scan.ScanContents` and `AppProperties.WorkerListsOwnRecords` state.
- `AppState.Next` and `AppState.Run` have no rows of their own: they are stated by `AppInvariants.NextValid`, `AppInvariants.RunValid`, `AppProperties.NextRankedMonotone`, `AppProperties.RunRankedMonotone` and the other run-level lemmas.
- `Query.GroupText` has no row of its own: `Query.GroupTextSplits` and `Query.BuildEmptyGroup` state it, and `Query.BuildGroup` cuts it.
- `QueryData::len` and `QueryData::default` appear only through `Query.BuildShape` and `Query.BuildNoGroups`.
- Three behaviours of the code are modelled as written:
  - `truncate(1024)` counts bytes and can panic (see Findings). The comment on src/query.rs:33 says characters.
  - `rank_query_weighted` zips the weights, so a length mismatch silently stops at the shortest side.
  - Ties keep `data` order because `sort_by` is stable. `Scan.ScanTiesById` shows that is increasing id order when ids increase along `data`, as they do for the indices `src/main.rs` assigns.
- Panics in `render` are not modelled, so "never panics" in this model means no panic in the modelled operations. `render` runs at the top of every loop iteration (src/app.rs:60) and can panic:
  - at `100u16 / len` (src/app.rs:255) with no categories;
  - at `strings[0]` (src/app.rs:267) for a visible record with no groups;
  - at `self.search[i]` (src/app.rs:276, 285) when `search` is shorter than the category list. `From` makes `search` empty when there are no records (src/app.rs:33-36), so an empty library with one category panics on the first frame;
  - at `search_categories[i][0]` (src/app.rs:280, 289) on an empty group.

## Findings

| source | as written | input that shows it | evidently intended | confidence | as-written member | corrected member |
|---|---|---|---|---|---|---|
| src/query.rs:33 | `s.truncate(1024)` cuts at byte 1024 and panics when that byte is inside a multi-byte character | a group whose text is 1023 ASCII characters followed by `é` (2 bytes): byte 1024 is in the middle of `é` | cut to 1024 characters, as the comment on that line says | medium, not executed | `Query.BuildPanicsOnSplitChar` | `Query.BuildChars` |

The app's model takes records that are already built, so no other member depends on which build is used. `Query.BuildCharsAgrees` shows the corrected build gives the same result as the code's on ASCII text. `Query.BuildCharsLimit` states that it never fails and keeps at most 1024 characters.

=== FILE: app.dfy ===
/** The interactive app as a state machine: the query boxes and their
    edits, the tick-gated launch of background scans stamped with a
    generation number, the acceptance of delivered scan results, and the
    highlighted result with its wrap-around navigation.

    Background scans are not threads here: a launched scan is a `Job` in
    `pending`, holding its generation and the snapshot it was given, and
    a `Deliver` step finishes any pending job, in any order, and hands its
    result to the body of `check_for_search_results`. */
module AppState {
  import opened Wrappers
  import opened Query
  import opened Search
  import opened Scan
  import opened Editing

  /** A scan result: the generation that produced it and the sorted list. */
  type Ranked = (nat, seq<Entry>)

  /** A launched scan that has not been delivered yet. */
  datatype Job = Job(generation: nat, data: seq<QueryData>, search: seq<string>)

  /** The `App` struct, plus the scans in flight. */
  datatype App = App(
    data: seq<QueryData>,
    search: seq<string>,
    searchNumber: nat,
    ranked: Ranked,
    selectedItem: Option<nat>,
    selectedSearchBox: nat,
    searchCategories: seq<seq<string>>,
    searchQueued: bool,
    pending: seq<Job>)

  /** The error `run` returns when nothing can be returned. */
  datatype IoError = OtherError

  /** Why the program would panic: `% 0`, or a `usize` subtraction below
      zero (a debug-build overflow check). */
  datatype Fault = DivideByZero | Underflow

  /** The keys the loop distinguishes. */
  datatype Key = Char(c: char) | Ctrl(c: char) | Up | Down | Backspace | OtherKey

  /** What happens next: the loop goes on, the user leaves, or a panic. */
  datatype Outcome = Continue(app: App) | Exit(app: App) | Panic(fault: Fault)

  /** One thing the loop can observe: a key, a tick, or the arrival of the
      result of pending scan `job`. */
  datatype Step = Input(key: Key) | Tick | Deliver(job: nat)

  /** The highlighted index, if any, points into the visible list. */
  ghost predicate SelectionInBounds(a: App)
  {
    a.selectedItem.Some? ==> a.selectedItem.value < |a.ranked.1|
  }

  /** `App::from`: one empty box per string of the first record (none when
      there are no records), nothing ranked, nothing selected, nothing
      queued. */
  function From(data: seq<QueryData>, categories: seq<seq<string>>): (a: App)
    ensures |a.search| == (if |data| > 0 then Len(data[0]) else 0)
    ensures forall i :: 0 <= i < |a.search| ==> a.search[i] == []
    ensures a.data == data && a.searchCategories == categories
    ensures a.searchNumber == 0 && a.ranked == (0, []) && a.selectedItem.None?
    ensures a.selectedSearchBox == 0 && !a.searchQueued && a.pending == []
  {
    var length := if |data| > 0 then Len(data[0]) else 0;
    App(data, seq(length, _ => []), 0, (0, []), None, 0, categories, false, [])
  }

  /** The state `run` enters its loop in: a first scan is queued. */
  function Start(data: seq<QueryData>, categories: seq<seq<string>>): App
  {
    From(data, categories).(searchQueued := true)
  }

  /** `increment_search_category`: the next box, wrapping to the first. */
  function IncrementSearchCategory(a: App): (r: Result<App, Fault>)
    ensures r.Err? <==> |a.searchCategories| == 0
    ensures r.Ok? ==> r.value == a.(selectedSearchBox := r.value.selectedSearchBox)
    ensures r.Ok? ==> r.value.selectedSearchBox < |a.searchCategories|
    ensures r.Ok? && a.selectedSearchBox + 1 < |a.searchCategories| ==> r.value.selectedSearchBox == a.selectedSearchBox + 1
    ensures r.Ok? && a.selectedSearchBox + 1 == |a.searchCategories| ==> r.value.selectedSearchBox == 0
  {
    var n := |a.searchCategories|;
    if n == 0 then Err(DivideByZero)
    else Ok(a.(selectedSearchBox := (a.selectedSearchBox + 1) % n))
  }

  /** `decrement_search_category`: the previous box, wrapping to the last. */
  function DecrementSearchCategory(a: App): (r: Result<App, Fault>)
    ensures r.Err? <==> a.selectedSearchBox == 0 && |a.searchCategories| == 0
    ensures r.Ok? ==> r.value == a.(selectedSearchBox := r.value.selectedSearchBox)
    ensures r.Ok? && a.selectedSearchBox < |a.searchCategories| ==> r.value.selectedSearchBox < |a.searchCategories|
    ensures r.Ok? && a.selectedSearchBox == 0 ==> r.value.selectedSearchBox == |a.searchCategories| - 1
    ensures a.selectedSearchBox > 0 ==> r == Ok(a.(selectedSearchBox := a.selectedSearchBox - 1))
  {
    var n := |a.searchCategories|;
    if a.selectedSearchBox == 0 then
      if n == 0 then Err(Underflow) else Ok(a.(selectedSearchBox := n - 1))
    else Ok(a.(selectedSearchBox := a.selectedSearchBox - 1))
  }

  /** `increment_selected`: the next result, wrapping to the first. */
  function IncrementSelected(a: App): (r: App)
    ensures r == a.(selectedItem := r.selectedItem)
    ensures a.selectedItem.None? ==> r.selectedItem.None?
    ensures SelectionInBounds(a) ==> SelectionInBounds(r)
    ensures SelectionInBounds(a) && a.selectedItem.Some? ==>
      r.selectedItem == Some((a.selectedItem.value + 1) % |a.ranked.1|)
  {
    a.(selectedItem :=
      match a.selectedItem
      case None => None
      case Some(x) => Some(if x + 1 >= |a.ranked.1| then 0 else x + 1))
  }

  /** `decrement_selected`: the previous result, wrapping to the last;
      stepping back from 0 in an empty list underflows. */
  function DecrementSelected(a: App): (r: Result<App, Fault>)
    ensures r.Err? <==> a.selectedItem == Some(0) && |a.ranked.1| == 0
    ensures r.Ok? ==> r.value == a.(selectedItem := r.value.selectedItem)
    ensures r.Ok? && a.selectedItem.None? ==> r.value.selectedItem.None?
    ensures SelectionInBounds(a) ==> r.Ok? && SelectionInBounds(r.value)
    ensures SelectionInBounds(a) && a.selectedItem.Some? ==>
      r.value.selectedItem == Some((a.selectedItem.value + |a.ranked.1| - 1) % |a.ranked.1|)
  {
    match a.selectedItem
    case None => Ok(a)
    case Some(x) =>
      if x == 0 then
        if |a.ranked.1| == 0 then Err(Underflow)
        else Ok(a.(selectedItem := Some(|a.ranked.1| - 1)))
      else Ok(a.(selectedItem := Some(x - 1)))
  }

  /** Applies `edit` to the selected box and queues a scan; when the
      selected box does not exist, nothing happens at all. */
  function EditSelectedBox(a: App, edit: string -> string): (r: App)
    ensures a.selectedSearchBox >= |a.search| ==> r == a
    ensures a.selectedSearchBox < |a.search| ==>
      && r == a.(search := r.search, searchQueued := true)
      && |r.search| == |a.search|
      && r.search[a.selectedSearchBox] == edit(a.search[a.selectedSearchBox])
      && forall i :: 0 <= i < |a.search| && i != a.selectedSearchBox ==> r.search[i] == a.search[i]
  {
    if a.selectedSearchBox < |a.search| then
      var b := a.selectedSearchBox;
      a.(search := a.search[b := edit(a.search[b])], searchQueued := true)
    else a
  }

  /** `add_letter`. */
  function AddLetter(a: App, c: char): App
  {
    EditSelectedBox(a, s => Push(s, c))
  }

  /** `remove_letter`. */
  function RemoveLetter(a: App): App
  {
    EditSelectedBox(a, Pop)
  }

  /** `remove_word`. */
  function RemoveWord(a: App): App
  {
    EditSelectedBox(a, RemoveWordText)
  }

  /** `clear_all_searches`: every box emptied, a scan queued. */
  function ClearAllSearches(a: App): (r: App)
    ensures r == a.(search := r.search, searchQueued := true)
    ensures |r.search| == |a.search|
    ensures forall i :: 0 <= i < |r.search| ==> r.search[i] == []
  {
    a.(search := seq(|a.search|, _ => []), searchQueued := true)
  }

  /** `run_query`: launches a scan of the current data against a snapshot
      of the boxes, stamped with the current search number, and moves the
      number on. */
  function RunQuery(a: App): App
  {
    a.(pending := a.pending + [Job(a.searchNumber, a.data, a.search)],
       searchNumber := a.searchNumber + 1)
  }

  /** The `Tick` arm of `run`: a queued search is launched and the queue
      flag cleared; without a queued search a tick changes nothing. */
  function OnTick(a: App): (r: App)
    ensures !a.searchQueued ==> r == a
    ensures a.searchQueued ==>
      && r == a.(pending := r.pending, searchNumber := r.searchNumber, searchQueued := false)
      && r.searchNumber == a.searchNumber + 1
      && r.pending == a.pending + [Job(a.searchNumber, a.data, a.search)]
  {
    if a.searchQueued then RunQuery(a).(searchQueued := false) else a
  }

  /** The body of a worker thread: from a snapshot of the records and the
      boxes to the list it sends back. The state machine takes it as a
      parameter; the program's own worker is `Worker(sc)`. */
  type ScanFn = (seq<QueryData>, seq<string>) -> seq<Entry>

  /** The worker `run_query` spawns: `ScanResults` with the program's
      matcher and score map. */
  function Worker(sc: Scorer): ScanFn
  {
    (data, search) => ScanResults(data, search, sc)
  }

  /** The result a job's worker sends back. */
  function JobResult(job: Job, scan: ScanFn): Ranked
  {
    (job.generation, scan(job.data, job.search))
  }

  /** The selection after a list of length `l` is accepted. */
  function Reconcile(selected: Option<nat>, l: nat): (r: Option<nat>)
    ensures r.Some? ==> r.value < l
    ensures selected.None? && l > 0 ==> r == Some(0)
    ensures selected.Some? && selected.value < l ==> r == selected
    ensures selected.Some? && selected.value >= l && l > 0 ==> r == Some(l - 1)
    ensures l == 0 ==> r.None?
  {
    match selected
    case Some(s) =>
      if s >= l then (if l > 0 then Some(l - 1) else None) else selected
    case None =>
      if l > 0 then Some(0) else None
  }

  /** The body of the loop in `check_for_search_results`: a result at
      least as new as the visible one replaces it and the selection is
      brought back into range; an older one is dropped. */
  function AcceptResult(a: App, result: Ranked): (r: App)
    ensures result.0 >= a.ranked.0 ==> r.ranked == result
    ensures result.0 >= a.ranked.0 ==> r.selectedItem == Reconcile(a.selectedItem, |result.1|)
    ensures result.0 < a.ranked.0 ==> r == a
    ensures r.ranked.0 >= a.ranked.0
    ensures r == a.(ranked := r.ranked, selectedItem := r.selectedItem)
    ensures result.0 >= a.ranked.0 ==> SelectionInBounds(r)
    ensures SelectionInBounds(a) ==> SelectionInBounds(r)
  {
    if result.0 >= a.ranked.0 then
      a.(ranked := result, selectedItem := Reconcile(a.selectedItem, |result.1|))
    else a
  }

  /** `check_for_search_results`: the results waiting in the channel, in
      arrival order. */
  function CheckForSearchResults(a: App, results: seq<Ranked>): (r: App)
    ensures r.ranked.0 >= a.ranked.0
    ensures forall i :: 0 <= i < |results| ==> r.ranked.0 >= results[i].0
    ensures r.ranked == a.ranked || r.ranked in results
    ensures r == a.(ranked := r.ranked, selectedItem := r.selectedItem)
    ensures SelectionInBounds(a) ==> SelectionInBounds(r)
    decreases |results|
  {
    if |results| == 0 then a
    else CheckForSearchResults(AcceptResult(a, results[0]), results[1..])
  }

  /** A job's result arrives: the job leaves `pending` and its result goes
      through `AcceptResult`. */
  function DeliverJob(a: App, i: nat, scan: ScanFn): (r: App)
    requires i < |a.pending|
    ensures r.pending == a.pending[..i] + a.pending[i + 1..]
    ensures r == a.(pending := r.pending, ranked := r.ranked, selectedItem := r.selectedItem)
    ensures a.pending[i].generation >= a.ranked.0 ==> r.ranked == JobResult(a.pending[i], scan)
    ensures a.pending[i].generation >= a.ranked.0 ==>
      r.selectedItem == Reconcile(a.selectedItem, |JobResult(a.pending[i], scan).1|)
    ensures a.pending[i].generation < a.ranked.0 ==> r == a.(pending := r.pending)
  {
    AcceptResult(a.(pending := a.pending[..i] + a.pending[i + 1..]), JobResult(a.pending[i], scan))
  }

  function FromResult(r: Result<App, Fault>): Outcome
  {
    match r
    case Ok(b) => Continue(b)
    case Err(f) => Panic(f)
  }

  /** The key dispatch of `run`. */
  function HandleKey(a: App, k: Key): Outcome
  {
    match k
    case Ctrl('c') => Exit(a)
    case Char('\n') => Continue(IncrementSelected(a))
    case Down => Continue(IncrementSelected(a))
    case Ctrl('k') => FromResult(DecrementSelected(a))
    case Up => FromResult(DecrementSelected(a))
    case Ctrl('l') => Exit(a)
    case Ctrl('n') => FromResult(IncrementSearchCategory(a))
    case Ctrl('p') => FromResult(DecrementSearchCategory(a))
    case Backspace => Continue(RemoveLetter(a))
    case Ctrl('w') => Continue(RemoveWord(a))
    case Ctrl('g') => Continue(ClearAllSearches(a))
    case Char(x) => Continue(AddLetter(a, x))
    case _ => Continue(a)
  }

  /** One step of the loop. A delivery naming no pending job is a channel
      with nothing in it. */
  function Next(a: App, s: Step, scan: ScanFn): Outcome
  {
    match s
    case Input(k) => HandleKey(a, k)
    case Tick => Continue(OnTick(a))
    case Deliver(i) => if i < |a.pending| then Continue(DeliverJob(a, i, scan)) else Continue(a)
  }

  /** Runs steps until the user leaves, a panic happens, or the steps run
      out. */
  function Run(a: App, steps: seq<Step>, scan: ScanFn): Outcome
    decreases |steps|
  {
    if |steps| == 0 then Continue(a)
    else match Next(a, steps[0], scan)
      case Continue(b) => Run(b, steps[1..], scan)
      case other => other
  }

  /** What `run` returns on leaving: the id of the highlighted record, or an
      error when nothing is highlighted or the index has no record. */
  function SelectedId(a: App): (r: Result<nat, IoError>)
    ensures r.Ok? <==> a.selectedItem.Some? && a.selectedItem.value < |a.ranked.1|
    ensures r.Ok? ==> r.value == a.ranked.1[a.selectedItem.value].0.id
  {
    match a.selectedItem
    case Some(s) => if s < |a.ranked.1| then Ok(a.ranked.1[s].0.id) else Err(OtherError)
    case None => Err(OtherError)
  }
}

=== FILE: app_invariants.dfy ===
/** What the app keeps true from its first state on, whatever keys, ticks
    and deliveries arrive and in whatever order scans finish. */
module AppInvariants {
  import opened Wrappers
  import opened Query
  import opened Search
  import opened Scan
  import opened AppState

  /** Scans in flight are stamped below the search number, in launch order,
      and scan the app's own data. */
  ghost predicate PendingWellFormed(a: App)
  {
    && (forall k :: 0 <= k < |a.pending| ==> a.pending[k].generation < a.searchNumber && a.pending[k].data == a.data)
    && (forall k, l :: 0 <= k < l < |a.pending| ==> a.pending[k].generation < a.pending[l].generation)
  }

  /** When no edit is waiting for a tick, the newest launched scan looked
      at the current boxes, and either it is still in flight or its result
      is the visible one. */
  ghost predicate Fresh(a: App, scan: ScanFn)
  {
    a.searchNumber > 0 && !a.searchQueued ==>
      && (forall k :: 0 <= k < |a.pending| && a.pending[k].generation == a.searchNumber - 1 ==>
            a.pending[k].search == a.search)
      && ((exists k :: 0 <= k < |a.pending| && a.pending[k].generation == a.searchNumber - 1)
          || a.ranked == (a.searchNumber - 1, scan(a.data, a.search)))
  }

  ghost predicate Valid(a: App, scan: ScanFn)
  {
    && SelectionInBounds(a)
    && (|a.searchCategories| > 0 ==> a.selectedSearchBox < |a.searchCategories|)
    && PendingWellFormed(a)
    && (a.ranked.0 < a.searchNumber || a.ranked.0 == 0)
    && Fresh(a, scan)
  }

  /** The app `run` starts from is valid. */
  lemma StartValid(data: seq<QueryData>, categories: seq<seq<string>>, scan: ScanFn)
    ensures Valid(Start(data, categories), scan)
  {
  }

  lemma EditValid(a: App, edit: string -> string, scan: ScanFn)
    requires Valid(a, scan)
    ensures Valid(EditSelectedBox(a, edit), scan)
  {
  }

  /** A tick keeps the app valid, and a launched scan is stamped above
      every scan still in flight: launched generations strictly increase. */
  lemma TickValid(a: App, scan: ScanFn)
    requires Valid(a, scan)
    ensures Valid(OnTick(a), scan)
    ensures a.searchQueued ==>
      forall k :: 0 <= k < |a.pending| ==> a.pending[k].generation < OnTick(a).pending[|a.pending|].generation
  {
    if a.searchQueued {
      var r := OnTick(a);
      var n := |a.pending|;
      assert r.pending[n].generation == a.searchNumber;
      assert forall k :: 0 <= k < n ==> r.pending[k] == a.pending[k];
      assert r.pending[n].search == a.search;
    }
  }

  /** Removing one job keeps the others, in order. */
  lemma RemoveKeepsOthers(p: seq<Job>, i: nat)
    requires i < |p|
    ensures var q := p[..i] + p[i + 1..];
      && |q| == |p| - 1
      && (forall k :: 0 <= k < |q| ==> q[k] == (if k < i then p[k] else p[k + 1]))
  {
  }

  lemma DeliverWellFormed(a: App, i: nat, scan: ScanFn)
    requires PendingWellFormed(a)
    requires i < |a.pending|
    ensures PendingWellFormed(DeliverJob(a, i, scan))
  {
    var rest := a.pending[..i] + a.pending[i + 1..];
    var r := DeliverJob(a, i, scan);
    RemoveKeepsOthers(a.pending, i);
    assert r.pending == rest && r.data == a.data && r.searchNumber == a.searchNumber;
    forall k, l | 0 <= k < l < |rest|
      ensures rest[k].generation < rest[l].generation
    {
      var k' := if k < i then k else k + 1;
      var l' := if l < i then l else l + 1;
      assert rest[k] == a.pending[k'] && rest[l] == a.pending[l'];
    }
    forall k | 0 <= k < |rest|
      ensures rest[k].generation < r.searchNumber && rest[k].data == r.data
    {
      var k' := if k < i then k else k + 1;
      assert rest[k] == a.pending[k'];
    }
  }

  lemma DeliverFresh(a: App, i: nat, scan: ScanFn)
    requires Valid(a, scan)
    requires i < |a.pending|
    ensures Fresh(DeliverJob(a, i, scan), scan)
  {
    var job := a.pending[i];
    var rest := a.pending[..i] + a.pending[i + 1..];
    var r := DeliverJob(a, i, scan);
    var sn := a.searchNumber;
    assert r.pending == rest;
    assert r.searchNumber == sn && r.searchQueued == a.searchQueued;
    assert r.data == a.data && r.search == a.search;
    if sn > 0 && !a.searchQueued {
      RemoveKeepsOthers(a.pending, i);
      forall k | 0 <= k < |rest| && rest[k].generation == sn - 1
        ensures rest[k].search == a.search
      {
        var k' := if k < i then k else k + 1;
        assert rest[k] == a.pending[k'];
      }
      if job.generation == sn - 1 {
        assert job.search == a.search && job.data == a.data;
        assert r.ranked == (sn - 1, scan(a.data, a.search));
      } else if exists k :: 0 <= k < |a.pending| && a.pending[k].generation == sn - 1 {
        var k :| 0 <= k < |a.pending| && a.pending[k].generation == sn - 1;
        var k' := if k < i then k else k - 1;
        assert rest[k'] == a.pending[k];
      } else {
        assert job.generation < a.ranked.0;
        assert r.ranked == a.ranked;
      }
    }
  }

  lemma DeliverValid(a: App, i: nat, scan: ScanFn)
    requires Valid(a, scan)
    requires i < |a.pending|
    ensures Valid(DeliverJob(a, i, scan), scan)
  {
    DeliverWellFormed(a, i, scan);
    DeliverFresh(a, i, scan);
  }

  /** Changing only the highlighted row, within range, keeps the app
      valid. */
  lemma SelectionChangeValid(a: App, b: App, scan: ScanFn)
    requires Valid(a, scan)
    requires b == a.(selectedItem := b.selectedItem) && SelectionInBounds(b)
    ensures Valid(b, scan)
  {
  }

  /** Changing only the selected box, to one of the categories if there
      are any, keeps the app valid. */
  lemma BoxChangeValid(a: App, b: App, scan: ScanFn)
    requires Valid(a, scan)
    requires b == a.(selectedSearchBox := b.selectedSearchBox)
    requires |b.searchCategories| > 0 ==> b.selectedSearchBox < |b.searchCategories|
    ensures Valid(b, scan)
  {
  }

  lemma NavigationValid(a: App, scan: ScanFn)
    requires Valid(a, scan)
    ensures Valid(IncrementSelected(a), scan)
    ensures DecrementSelected(a).Ok? && Valid(DecrementSelected(a).value, scan)
    ensures IncrementSearchCategory(a).Ok? ==> Valid(IncrementSearchCategory(a).value, scan)
    ensures DecrementSearchCategory(a).Ok? ==> Valid(DecrementSearchCategory(a).value, scan)
  {
    SelectionChangeValid(a, IncrementSelected(a), scan);
    SelectionChangeValid(a, DecrementSelected(a).value, scan);
    if IncrementSearchCategory(a).Ok? {
      BoxChangeValid(a, IncrementSearchCategory(a).value, scan);
    }
    if DecrementSearchCategory(a).Ok? {
      BoxChangeValid(a, DecrementSearchCategory(a).value, scan);
    }
  }

  lemma HandleKeyValid(a: App, k: Key, scan: ScanFn)
    requires Valid(a, scan)
    ensures HandleKey(a, k).Continue? ==> Valid(HandleKey(a, k).app, scan)
    ensures HandleKey(a, k).Exit? ==> HandleKey(a, k).app == a
    ensures HandleKey(a, k).Panic? ==> |a.searchCategories| == 0
  {
    match k
    case Ctrl('c') =>
    case Char('\n') => NavigationValid(a, scan);
    case Down => NavigationValid(a, scan);
    case Ctrl('k') => NavigationValid(a, scan);
    case Up => NavigationValid(a, scan);
    case Ctrl('l') =>
    case Ctrl('n') => NavigationValid(a, scan);
    case Ctrl('p') => NavigationValid(a, scan);
    case Backspace => EditValid(a, Editing.Pop, scan);
    case Ctrl('w') => EditValid(a, Editing.RemoveWordText, scan);
    case Ctrl('g') => EditValid(a, _ => "", scan);
    case Char(x) => EditValid(a, s => Editing.Push(s, x), scan);
    case _ =>
  }

  /** A step keeps the app valid, and the only panic is box cycling with no
      categories at all. */
  lemma NextValid(a: App, s: Step, scan: ScanFn)
    requires Valid(a, scan)
    ensures Next(a, s, scan).Continue? ==> Valid(Next(a, s, scan).app, scan)
    ensures Next(a, s, scan).Exit? ==> Next(a, s, scan).app == a
    ensures Next(a, s, scan).Panic? ==> |a.searchCategories| == 0
  {
    match s
    case Tick => TickValid(a, scan);
    case Deliver(i) =>
      if i < |a.pending| {
        DeliverValid(a, i, scan);
      }
    case Input(k) => HandleKeyValid(a, k, scan);
  }

  /** Any run from a valid app stays valid and panics only when there are
      no categories; from `Start` with at least one category the program
      never panics. */
  lemma {:induction false} RunValid(a: App, steps: seq<Step>, scan: ScanFn)
    requires Valid(a, scan)
    ensures Run(a, steps, scan).Panic? ==> |a.searchCategories| == 0
    ensures !Run(a, steps, scan).Panic? ==> Valid(Run(a, steps, scan).app, scan)
    decreases |steps|
  {
    if |steps| > 0 {
      NextValid(a, steps[0], scan);
      var o := Next(a, steps[0], scan);
      if o.Continue? {
        assert o.app.searchCategories == a.searchCategories;
        assert Run(a, steps, scan) == Run(o.app, steps[1..], scan);
        RunValid(o.app, steps[1..], scan);
      } else {
        assert Run(a, steps, scan) == o;
      }
    }
  }
}

=== FILE: app_properties.dfy ===
/** Properties of single operations of the app and of whole runs: the
    navigation round trips and cycles, the edits' inverses, the
    newest-result-wins rule of result delivery, and what a run that stops
    can show and return. */
module AppProperties {
  import opened Wrappers
  import opened Query
  import opened Search
  import opened Scan
  import opened Editing
  import opened AppState
  import opened AppInvariants

  /** Stepping down and then up (or up and then down) through the results
      returns to the same highlighted row. */
  lemma SelectionRoundTrip(a: App)
    requires SelectionInBounds(a)
    ensures DecrementSelected(IncrementSelected(a)) == Ok(a)
    ensures DecrementSelected(a).Ok? && IncrementSelected(DecrementSelected(a).value) == a
  {
    var n := |a.ranked.1|;
    if a.selectedItem.Some? {
      var x := a.selectedItem.value;
      if x + 1 >= n {
        assert IncrementSelected(a).selectedItem == Some(0);
      } else {
        assert IncrementSelected(a).selectedItem == Some(x + 1);
      }
      if x == 0 {
        assert DecrementSelected(a).value.selectedItem == Some(n - 1);
      } else {
        assert DecrementSelected(a).value.selectedItem == Some(x - 1);
      }
    }
  }

  /** `IncrementSelected` applied `k` times. */
  function IncrementSelectedTimes(a: App, k: nat): (r: App)
    ensures r == a.(selectedItem := r.selectedItem)
    decreases k
  {
    if k == 0 then a else IncrementSelected(IncrementSelectedTimes(a, k - 1))
  }

  /** Moving down `k` times lands `k` rows further on, counted around the
      list. */
  lemma {:induction false} SelectionCycle(a: App, k: nat)
    requires SelectionInBounds(a) && a.selectedItem.Some?
    ensures SelectionInBounds(IncrementSelectedTimes(a, k))
    ensures IncrementSelectedTimes(a, k).selectedItem == Some((a.selectedItem.value + k) % |a.ranked.1|)
    decreases k
  {
    var x := a.selectedItem.value;
    if k == 0 {
      ModUnique(x, |a.ranked.1|, 0, x);
    } else {
      SelectionCycle(a, k - 1);
      ModSucc(x + k - 1, |a.ranked.1|);
    }
  }

  /** Moving down as many times as there are rows comes back to the same
      row. */
  lemma SelectionFullCycle(a: App)
    requires SelectionInBounds(a) && a.selectedItem.Some?
    ensures IncrementSelectedTimes(a, |a.ranked.1|) == a
  {
    var n := |a.ranked.1|;
    var x := a.selectedItem.value;
    SelectionCycle(a, n);
    ModUnique(x + n, n, 1, x);
  }

  /** Euclidean division is unique. */
  lemma ModUnique(m: int, n: int, q: int, r: int)
    requires n > 0 && 0 <= r < n && m == q * n + r
    ensures m % n == r && m / n == q
  {
    var q0 := m / n;
    var r0 := m % n;
    assert (q0 - q) * n == r - r0;
    if q0 > q {
      MulAtLeast(q0 - q, n);
    } else if q0 < q {
      MulAtLeast(q - q0, n);
    }
  }

  lemma MulAtLeast(d: int, n: int)
    requires d >= 1 && n > 0
    ensures d * n >= n
  {
  }

  /** `(m + 1) % n` from `m % n`: one more, or back to zero. */
  lemma ModSucc(m: nat, n: nat)
    requires n > 0
    ensures (m + 1) % n == if m % n + 1 >= n then 0 else m % n + 1
  {
    var q := m / n;
    var r := m % n;
    if r + 1 < n {
      ModUnique(m + 1, n, q, r + 1);
    } else {
      assert (q + 1) * n == q * n + n;
      ModUnique(m + 1, n, q + 1, 0);
    }
  }

  /** Moving to the next box and back (or back and on) returns to the same
      box, when the selected box is one of the categories. */
  lemma CategoryRoundTrip(a: App)
    requires a.selectedSearchBox < |a.searchCategories|
    ensures IncrementSearchCategory(a).Ok?
    ensures DecrementSearchCategory(IncrementSearchCategory(a).value) == Ok(a)
    ensures DecrementSearchCategory(a).Ok?
    ensures IncrementSearchCategory(DecrementSearchCategory(a).value) == Ok(a)
  {
    var n := |a.searchCategories|;
    var b := a.selectedSearchBox;
    if b + 1 < n {
      assert IncrementSearchCategory(a).value.selectedSearchBox == b + 1;
    } else {
      assert IncrementSearchCategory(a).value.selectedSearchBox == 0;
    }
    if b == 0 {
      assert DecrementSearchCategory(a).value.selectedSearchBox == n - 1;
    }
  }

  /** Typing a character and then Backspace leaves the boxes as they were
      (the scan stays queued). */
  lemma AddThenRemoveLetter(a: App, c: char)
    requires a.selectedSearchBox < |a.search|
    ensures RemoveLetter(AddLetter(a, c)) == a.(searchQueued := true)
  {
    var b := a.selectedSearchBox;
    var r := RemoveLetter(AddLetter(a, c));
    PopPush(a.search[b], c);
    assert r.search == a.search;
  }

  /** Typing `w` one key at a time, each key handled by `add_letter`. */
  function TypeWord(a: App, w: string): App
    decreases |w|
  {
    if |w| == 0 then a else TypeWord(AddLetter(a, w[0]), w[1..])
  }

  /** Typing a non-empty word letter by letter is one edit that appends
      the whole word to the selected box. */
  lemma {:induction false} TypeWordAppends(a: App, w: string)
    requires |w| > 0
    ensures TypeWord(a, w) == EditSelectedBox(a, s => s + w)
    decreases |w|
  {
    var a1 := AddLetter(a, w[0]);
    if a.selectedSearchBox < |a.search| {
      var b := a.selectedSearchBox;
      if |w| == 1 {
        assert Push(a.search[b], w[0]) == a.search[b] + w;
      } else {
        TypeWordAppends(a1, w[1..]);
        assert a1.search[b] + w[1..] == a.search[b] + w;
        assert EditSelectedBox(a1, s => s + w[1..]).search == EditSelectedBox(a, s => s + w).search;
      }
    } else {
      assert a1 == a;
      if |w| > 1 {
        TypeWordAppends(a1, w[1..]);
      }
    }
  }

  /** Ctrl-w after typing a word onto text that ends in whitespace (or is
      empty) removes exactly that word. */
  lemma AddWordThenRemoveWord(a: App, w: string)
    requires a.selectedSearchBox < |a.search|
    requires var s := a.search[a.selectedSearchBox]; |s| == 0 || IsWhitespace(s[|s| - 1])
    requires |w| > 0 && forall i :: 0 <= i < |w| ==> !IsWhitespace(w[i])
    ensures RemoveWord(TypeWord(a, w)) == a.(searchQueued := true)
    ensures RemoveWord(EditSelectedBox(a, s => s + w)) == a.(searchQueued := true)
  {
    var b := a.selectedSearchBox;
    var s := a.search[b];
    RemoveWordAfterWord(s, w);
    TypeWordAppends(a, w);
    assert RemoveWord(EditSelectedBox(a, s => s + w)).search == a.search;
  }

  /** Clearing twice is clearing once. */
  lemma ClearAllIdempotent(a: App)
    ensures ClearAllSearches(ClearAllSearches(a)) == ClearAllSearches(a)
  {
    var r := ClearAllSearches(a);
    assert ClearAllSearches(r).search == r.search;
  }

  /** How the highlighted row is brought back into range when a list
      arrives: past the end moves to the last row, no rows clears it, and
      the first non-empty list highlights the first row. */
  lemma ReconcileExamples()
    ensures Reconcile(Some(3), 2) == Some(1)
    ensures Reconcile(Some(3), 0) == None
    ensures Reconcile(None, 5) == Some(0)
    ensures Reconcile(None, 0) == None
    ensures Reconcile(Some(1), 2) == Some(1)
  {
  }

  /** Whatever order results arrive in, a result strictly newer than every
      other one, and not older than the visible one, ends up visible. */
  lemma {:induction false} NewestResultWins(a: App, results: seq<Ranked>, j: nat)
    requires j < |results|
    requires results[j].0 >= a.ranked.0
    requires forall i :: 0 <= i < |results| && i != j ==> results[i].0 < results[j].0
    ensures CheckForSearchResults(a, results).ranked == results[j]
    decreases |results|
  {
    var b := AcceptResult(a, results[0]);
    var tail := results[1..];
    assert CheckForSearchResults(a, results) == CheckForSearchResults(b, tail);
    if j == 0 {
      assert b.ranked == results[0];
      KeepsNewest(b, tail);
    } else {
      assert results[0].0 < results[j].0;
      assert b.ranked.0 <= results[j].0;
      assert tail[j - 1] == results[j];
      forall i | 0 <= i < |tail| && i != j - 1
        ensures tail[i].0 < tail[j - 1].0
      {
        assert tail[i] == results[i + 1];
      }
      NewestResultWins(b, tail, j - 1);
    }
  }

  /** Results all older than the visible one are all dropped. */
  lemma {:induction false} KeepsNewest(a: App, results: seq<Ranked>)
    requires forall i :: 0 <= i < |results| ==> results[i].0 < a.ranked.0
    ensures CheckForSearchResults(a, results) == a
    decreases |results|
  {
    if |results| > 0 {
      assert AcceptResult(a, results[0]) == a;
      KeepsNewest(a, results[1..]);
    }
  }

  /** The out-of-order scenario: scan 2 finishes before scan 1; the older
      result is dropped and scan 2's list stays visible. */
  lemma StaleResultDropped(a: App, r1: Ranked, r2: Ranked)
    requires r1.0 < r2.0 && a.ranked.0 <= r2.0
    ensures CheckForSearchResults(a, [r2, r1]).ranked == r2
  {
    NewestResultWins(a, [r2, r1], 0);
  }

  /** A step never shows an older generation than the one visible. */
  lemma NextRankedMonotone(a: App, s: Step, scan: ScanFn)
    ensures !Next(a, s, scan).Panic? ==> Next(a, s, scan).app.ranked.0 >= a.ranked.0
    ensures !Next(a, s, scan).Panic? ==> Next(a, s, scan).app.data == a.data
    ensures !Next(a, s, scan).Panic? ==> Next(a, s, scan).app.searchCategories == a.searchCategories
  {
    match s
    case Input(k) =>
    case Tick =>
    case Deliver(i) =>
  }

  /** Over a whole run the visible generation only moves forward, and the
      records and categories are never changed. */
  lemma {:induction false} RunRankedMonotone(a: App, steps: seq<Step>, scan: ScanFn)
    ensures !Run(a, steps, scan).Panic? ==> Run(a, steps, scan).app.ranked.0 >= a.ranked.0
    ensures !Run(a, steps, scan).Panic? ==> Run(a, steps, scan).app.data == a.data
    ensures !Run(a, steps, scan).Panic? ==> Run(a, steps, scan).app.searchCategories == a.searchCategories
    decreases |steps|
  {
    if |steps| > 0 {
      NextRankedMonotone(a, steps[0], scan);
      var o := Next(a, steps[0], scan);
      if o.Continue? {
        assert Run(a, steps, scan) == Run(o.app, steps[1..], scan);
        RunRankedMonotone(o.app, steps[1..], scan);
      } else {
        assert Run(a, steps, scan) == o;
      }
    }
  }

  /** After any run of the program with at least one category: it has not
      panicked, and once every edit has been scanned and every scan has
      arrived, the visible list is the scan of the current boxes. */
  lemma RunShowsCurrentSearch(data: seq<QueryData>, categories: seq<seq<string>>, steps: seq<Step>, scan: ScanFn)
    requires |categories| > 0
    ensures !Run(Start(data, categories), steps, scan).Panic?
    ensures var b := Run(Start(data, categories), steps, scan).app;
      b.searchNumber > 0 && !b.searchQueued && b.pending == [] ==>
        b.ranked == (b.searchNumber - 1, scan(data, b.search))
  {
    var a := Start(data, categories);
    StartValid(data, categories, scan);
    RunValid(a, steps, scan);
    RunRankedMonotone(a, steps, scan);
  }

  /** Every row a scan function lists is one of the records it was given. */
  ghost predicate ListsOwnRecords(scan: ScanFn)
  {
    forall data, search, e :: e in scan(data, search) ==> e.0 in data
  }

  /** The program's worker lists only records it was given. */
  lemma WorkerListsOwnRecords(sc: Scorer)
    ensures ListsOwnRecords(Worker(sc))
  {
    forall data, search, e | e in Worker(sc)(data, search)
      ensures e.0 in data
    {
      ScanContents(data, search, sc);
    }
  }

  /** The visible rows are records of the app's own data. */
  ghost predicate RowsFromData(a: App)
  {
    forall e :: e in a.ranked.1 ==> e.0 in a.data
  }

  /** A step keeps the visible rows among the records when the scan lists
      only records it was given. */
  lemma NextRowsFromData(a: App, s: Step, scan: ScanFn)
    requires ListsOwnRecords(scan) && Valid(a, scan) && RowsFromData(a)
    ensures !Next(a, s, scan).Panic? ==> RowsFromData(Next(a, s, scan).app)
  {
    NextRankedMonotone(a, s, scan);
    if s.Deliver? && s.job < |a.pending| {
      var job := a.pending[s.job];
      assert job.data == a.data;
      var r := DeliverJob(a, s.job, scan);
      if job.generation >= a.ranked.0 {
        assert r.ranked.1 == scan(a.data, job.search);
      }
    }
  }

  lemma {:induction false} RunRowsFromData(a: App, steps: seq<Step>, scan: ScanFn)
    requires ListsOwnRecords(scan) && Valid(a, scan) && RowsFromData(a)
    ensures !Run(a, steps, scan).Panic? ==> RowsFromData(Run(a, steps, scan).app)
    decreases |steps|
  {
    if |steps| > 0 {
      NextValid(a, steps[0], scan);
      NextRowsFromData(a, steps[0], scan);
      var o := Next(a, steps[0], scan);
      if o.Continue? {
        assert Run(a, steps, scan) == Run(o.app, steps[1..], scan);
        RunRowsFromData(o.app, steps[1..], scan);
      } else {
        assert Run(a, steps, scan) == o;
      }
    }
  }

  /** What the program returns when the user leaves: an id exactly when a
      row is highlighted, and that id belongs to one of the records it was
      started with. */
  lemma ExitReturnsRecordId(data: seq<QueryData>, categories: seq<seq<string>>, steps: seq<Step>, sc: Scorer)
    ensures var o := Run(Start(data, categories), steps, Worker(sc));
      o.Exit? ==>
        && (SelectedId(o.app).Ok? <==> o.app.selectedItem.Some?)
        && (SelectedId(o.app).Ok? ==> exists d :: d in data && d.id == SelectedId(o.app).value)
  {
    var scan := Worker(sc);
    var a := Start(data, categories);
    StartValid(data, categories, scan);
    WorkerListsOwnRecords(sc);
    RunValid(a, steps, scan);
    RunRankedMonotone(a, steps, scan);
    RunRowsFromData(a, steps, scan);
    var o := Run(a, steps, scan);
    if o.Exit? && SelectedId(o.app).Ok? {
      var row := o.app.ranked.1[o.app.selectedItem.value];
      assert row in o.app.ranked.1;
      assert row.0 in data;
    }
  }

  /** With the program's own worker: once every edit has been scanned and
      every scan has arrived, the visible list holds exactly the records
      whose rank is defined, each with its rank, best first. */
  lemma ProgramShowsRanking(data: seq<QueryData>, categories: seq<seq<string>>, steps: seq<Step>, sc: Scorer)
    requires |categories| > 0
    ensures var o := Run(Start(data, categories), steps, Worker(sc));
      !o.Panic? && (o.app.searchNumber > 0 && !o.app.searchQueued && o.app.pending == [] ==>
        ShowsRanking(o.app.ranked.1, data, o.app.search, sc))
  {
    var o := Run(Start(data, categories), steps, Worker(sc));
    RunShowsCurrentSearch(data, categories, steps, Worker(sc));
    var b := o.app;
    if b.searchNumber > 0 && !b.searchQueued && b.pending == [] {
      ScanShowsRanking(data, b.search, sc);
    }
  }

  /** `rows` is sorted best first and lists exactly the records whose rank
      against `search` is defined, each with its rank. */
  ghost predicate ShowsRanking(rows: seq<Entry>, data: seq<QueryData>, search: seq<string>, sc: Scorer)
  {
    && SortedDesc(rows)
    && (forall e :: e in rows ==> e.0 in data && RankQuery(e.0, search, sc) == Some(e.1))
    && (forall d :: d in data && RankQuery(d, search, sc).Some? ==> (d, RankQuery(d, search, sc).value) in rows)
  }

  lemma ScanShowsRanking(data: seq<QueryData>, search: seq<string>, sc: Scorer)
    ensures ShowsRanking(Worker(sc)(data, search), data, search, sc)
  {
    ScanContents(data, search, sc);
  }
}

=== FILE: editing.dfy ===
/** Edits of one query box: push and pop a character, and delete the last
    word the way Ctrl-W does in a shell. */
module Editing {
  import opened Text

  /** The characters `remove_word` treats as separators. */
  predicate IsWhitespace(c: char)
  {
    c == ' ' || c == '\t' || c == '\n'
  }

  /** `String::pop`, keeping the string: drops the last character, if any. */
  function Pop(s: string): (r: string)
    ensures |s| == 0 ==> r == s
    ensures |s| > 0 ==> r + [s[|s| - 1]] == s
  {
    if |s| == 0 then s else s[..|s| - 1]
  }

  /** `String::push`. */
  function Push(s: string, c: char): string
  {
    s + [c]
  }

  /** Popping undoes pushing. */
  lemma PopPush(s: string, c: char)
    ensures Pop(Push(s, c)) == s
  {
    assert (s + [c])[..|s|] == s;
  }

  /** `s` without its trailing whitespace. */
  function TrimEndWhitespace(s: string): (r: string)
    ensures IsPrefix(r, s)
    ensures forall i :: |r| <= i < |s| ==> IsWhitespace(s[i])
    ensures |r| > 0 ==> !IsWhitespace(r[|r| - 1])
    decreases |s|
  {
    if |s| > 0 && IsWhitespace(s[|s| - 1]) then TrimEndWhitespace(s[..|s| - 1]) else s
  }

  /** `s` without its trailing run of non-whitespace characters. */
  function TrimEndWord(s: string): (r: string)
    ensures IsPrefix(r, s)
    ensures forall i :: |r| <= i < |s| ==> !IsWhitespace(s[i])
    ensures |r| > 0 ==> IsWhitespace(r[|r| - 1])
    decreases |s|
  {
    if |s| > 0 && !IsWhitespace(s[|s| - 1]) then TrimEndWord(s[..|s| - 1]) else s
  }

  /** What `remove_word` leaves: trailing whitespace goes, then the last
      word; the whitespace character before that word stays. */
  function RemoveWordText(s: string): string
  {
    TrimEndWord(TrimEndWhitespace(s))
  }

  /** `r` is `s` with its last word removed, the word ending at `k`: `r`
      is a prefix of `s`, `s[|r|..k]` holds no whitespace, `s[k..]` is all
      whitespace, and a non-empty `r` ends in whitespace right before a
      non-empty word. */
  ghost predicate DropsLastWord(s: string, r: string, k: int)
  {
    && |r| <= k <= |s| && IsPrefix(r, s)
    && (forall i :: |r| <= i < k ==> !IsWhitespace(s[i]))
    && (forall i :: k <= i < |s| ==> IsWhitespace(s[i]))
    && (|r| > 0 ==> |r| < k && IsWhitespace(s[|r| - 1]))
  }

  /** `RemoveWordText` meets the description, and text that is all
      whitespace becomes empty. */
  lemma RemoveWordShape(s: string)
    ensures DropsLastWord(s, RemoveWordText(s), |TrimEndWhitespace(s)|)
    ensures |RemoveWordText(s)| <= |s|
    ensures (forall i :: 0 <= i < |s| ==> IsWhitespace(s[i])) ==> RemoveWordText(s) == []
  {
    var t := TrimEndWhitespace(s);
    var r := TrimEndWord(t);
    assert forall i :: |r| <= i < |t| ==> s[i] == t[i];
    if |r| > 0 {
      assert r[|r| - 1] == t[|r| - 1];
      assert |r| < |t|;
    }
    if |t| > 0 {
      assert !IsWhitespace(s[|t| - 1]);
    }
  }

  /** The description admits only one result, so it specifies
      `remove_word` completely. */
  lemma RemoveWordUnique(s: string, r: string, k: int)
    requires DropsLastWord(s, r, k)
    ensures r == RemoveWordText(s)
  {
    var t := TrimEndWhitespace(s);
    var r0 := TrimEndWord(t);
    RemoveWordShape(s);
    if |t| > 0 {
      assert t[|t| - 1] == s[|t| - 1];
    }
    if k > |r| {
      assert !IsWhitespace(s[k - 1]);
    }
    assert k == |t|;
    if |r| > 0 {
      assert IsWhitespace(s[|r| - 1]);
    }
    if |r0| > 0 {
      assert IsWhitespace(s[|r0| - 1]);
    }
    assert |r| == |r0|;
    assert r0 == s[..|r0|];
  }

  /** Removing a word just typed after whitespace (or into an empty box)
      gives back the text from before the word. */
  lemma RemoveWordAfterWord(s: string, w: string)
    requires |s| == 0 || IsWhitespace(s[|s| - 1])
    requires |w| > 0 && forall i :: 0 <= i < |w| ==> !IsWhitespace(w[i])
    ensures RemoveWordText(s + w) == s
  {
    var t := s + w;
    assert t[..|s|] == s;
    forall i | |s| <= i < |t|
      ensures !IsWhitespace(t[i])
    {
      assert t[i] == w[i - |s|];
    }
    if |s| > 0 {
      assert t[|s| - 1] == s[|s| - 1];
    }
    assert DropsLastWord(t, s, |t|);
    RemoveWordUnique(t, s, |t|);
  }

  /** The popping loop of `remove_word`: pop characters; whitespace before
      any word character is dropped, a word character marks the word, and
      the first whitespace after the word is pushed back before stopping. */
  method RemoveWordLoop(s0: string) returns (s: string)
    ensures s == RemoveWordText(s0)
    ensures IsPrefix(s, s0)
  {
    s := s0;
    var inWord := false;
    while true
      invariant IsPrefix(s, s0)
      invariant !inWord ==> RemoveWordText(s) == RemoveWordText(s0)
      invariant inWord ==> TrimEndWord(s) == RemoveWordText(s0)
      decreases |s|
    {
      if |s| == 0 {
        break;
      }
      var c := s[|s| - 1];
      s := s[..|s| - 1];
      if IsWhitespace(c) {
        if inWord {
          s := s + [c];
          break;
        }
      } else {
        inWord := true;
      }
    }
  }
}

=== FILE: query.dfy ===
/** The searchable record: each raw YAML record is flattened once into one
    string per field group, each string cut to the matcher's byte limit. */
module Query {
  import opened Wrappers
  import opened Text

  /** A YAML value as far as the flattening looks at it: a string, a
      mapping with string keys, or anything else (null, bool, number,
      sequence), which the flattening never reads. */
  datatype Value = Str(text: string) | Mapping(fields: map<string, Value>) | Other

  /** One flattened record: a string per field group and the index of the
      record it came from. */
  datatype QueryData = QueryData(strings: seq<string>, id: nat)

  /** The matcher's limit on the length of a searched string. The code
      counts it in bytes; its comment, in characters. */
  const SearchLimit: nat := 1024

  /** Fields of one group are separated by a newline. */
  const Separator: string := "\n"

  /** `Value::get(key)`: only a mapping has fields. */
  function Get(entry: Value, key: string): Option<Value>
  {
    if entry.Mapping? && key in entry.fields then Some(entry.fields[key]) else None
  }

  /** The text one field contributes: its string value, or the empty
      string when the field is absent or holds something other than a
      string. */
  function FieldText(entry: Value, key: string): (t: string)
    ensures Get(entry, key).None? ==> t == []
    ensures Get(entry, key).Some? && !Get(entry, key).value.Str? ==> t == []
    ensures Get(entry, key).Some? && Get(entry, key).value.Str? ==> t == entry.fields[key].text
  {
    match Get(entry, key)
    case Some(Str(text)) => text
    case _ => []
  }

  /** The texts of the fields of one group, in the group's order. */
  function FieldTexts(entry: Value, group: seq<string>): (ts: seq<string>)
    ensures |ts| == |group|
    ensures forall i :: 0 <= i < |group| ==> ts[i] == FieldText(entry, group[i])
  {
    seq(|group|, i requires 0 <= i < |group| => FieldText(entry, group[i]))
  }

  /** A group's string before truncation. */
  function GroupText(entry: Value, group: seq<string>): string
  {
    Join(FieldTexts(entry, group), Separator)
  }

  /** A group's built string: the joined text cut to `SearchLimit`
      bytes; `None` is the panic of a cut inside a scalar value. */
  function BuildGroup(entry: Value, group: seq<string>): (r: Option<string>)
    ensures r.Some? ==> ByteLen(r.value) <= SearchLimit
    ensures r.Some? ==> IsPrefix(r.value, GroupText(entry, group))
    ensures ByteLen(GroupText(entry, group)) <= SearchLimit ==> r == Some(GroupText(entry, group))
    ensures ByteLen(GroupText(entry, group)) > SearchLimit && r.Some? ==> ByteLen(r.value) == SearchLimit
  {
    Truncate(GroupText(entry, group), SearchLimit)
  }

  /** The strings of all groups, or `None` if building any of them panics. */
  function BuildStrings(entry: Value, arguments: seq<seq<string>>): (r: Option<seq<string>>)
    ensures r.Some? <==> forall i :: 0 <= i < |arguments| ==> BuildGroup(entry, arguments[i]).Some?
    ensures r.Some? ==> |r.value| == |arguments|
    ensures r.Some? ==> forall i :: 0 <= i < |arguments| ==> BuildGroup(entry, arguments[i]) == Some(r.value[i])
    decreases |arguments|
  {
    if |arguments| == 0 then Some([])
    else match BuildGroup(entry, arguments[0])
      case None => None
      case Some(s) =>
        match BuildStrings(entry, arguments[1..])
        case None => None
        case Some(rest) => Some([s] + rest)
  }

  /** `QueryData::build`: one string per group, in order, and the id
      unchanged; `None` when truncating some group's text would panic. */
  function Build(id: nat, entry: Value, arguments: seq<seq<string>>): (r: Option<QueryData>)
    ensures r.Some? <==> forall i :: 0 <= i < |arguments| ==> BuildGroup(entry, arguments[i]).Some?
    ensures r.Some? ==> r.value.id == id && |r.value.strings| == |arguments|
    ensures r.Some? ==> forall i :: 0 <= i < |arguments| ==> BuildGroup(entry, arguments[i]) == Some(r.value.strings[i])
  {
    match BuildStrings(entry, arguments)
    case None => None
    case Some(strings) => Some(QueryData(strings, id))
  }

  /** `QueryData::len`. */
  function Len(q: QueryData): nat
  {
    |q.strings|
  }

  /** `QueryData::default`. */
  function Default(): QueryData
  {
    QueryData([], 0)
  }

  /** Every string of a built record fits the matcher's limit, and the
      record's length is the number of groups. */
  lemma BuildShape(id: nat, entry: Value, arguments: seq<seq<string>>)
    requires Build(id, entry, arguments).Some?
    ensures Len(Build(id, entry, arguments).value) == |arguments|
    ensures forall i :: 0 <= i < |arguments| ==>
      ByteLen(Build(id, entry, arguments).value.strings[i]) <= SearchLimit
  {
    var q := Build(id, entry, arguments).value;
    forall i | 0 <= i < |arguments|
      ensures ByteLen(q.strings[i]) <= SearchLimit
    {
      assert BuildGroup(entry, arguments[i]) == Some(q.strings[i]);
    }
  }

  /** No groups give the default record with the given id. */
  lemma BuildNoGroups(id: nat, entry: Value)
    ensures Build(id, entry, []) == Some(Default().(id := id))
  {
  }

  /** An empty group gives the empty string. */
  lemma BuildEmptyGroup(entry: Value)
    ensures BuildGroup(entry, []) == Some([])
  {
    assert GroupText(entry, []) == [];
  }

  /** Every string field holds ASCII text. */
  ghost predicate AsciiFields(entry: Value)
  {
    entry.Mapping? ==>
      forall key :: key in entry.fields && entry.fields[key].Str? ==> IsAscii(entry.fields[key].text)
  }

  /** On ASCII data building never panics: each string is the first
      `SearchLimit` characters of the group's joined text. */
  lemma BuildAscii(id: nat, entry: Value, arguments: seq<seq<string>>)
    requires AsciiFields(entry)
    ensures Build(id, entry, arguments).Some?
    ensures forall i :: 0 <= i < |arguments| ==>
      var t := GroupText(entry, arguments[i]);
      Build(id, entry, arguments).value.strings[i] == t[..Min(|t|, SearchLimit)]
  {
    forall i | 0 <= i < |arguments|
      ensures BuildGroup(entry, arguments[i]) == Some(GroupText(entry, arguments[i])[..Min(|GroupText(entry, arguments[i])|, SearchLimit)])
    {
      GroupAscii(entry, arguments[i]);
      TruncateAscii(GroupText(entry, arguments[i]), SearchLimit);
    }
  }

  lemma GroupAscii(entry: Value, group: seq<string>)
    requires AsciiFields(entry)
    ensures IsAscii(GroupText(entry, group))
  {
    var ts := FieldTexts(entry, group);
    forall i | 0 <= i < |ts|
      ensures IsAscii(ts[i])
    {
      assert ts[i] == FieldText(entry, group[i]);
    }
    JoinAscii(ts, Separator);
  }

  /** Fields separated by newlines can be told apart again: splitting a
      group's text on the separator gives back the field texts, when none
      of them contains a newline. */
  lemma GroupTextSplits(entry: Value, group: seq<string>)
    requires |group| > 0
    requires forall i :: 0 <= i < |group| ==> '\n' !in FieldText(entry, group[i])
    ensures Split(GroupText(entry, group), '\n') == FieldTexts(entry, group)
  {
    SplitJoin(FieldTexts(entry, group), '\n');
  }

  /** Joining two and three texts. */
  lemma JoinTwoThree(a: string, b: string, c: string, sep: string)
    ensures Join([a, b], sep) == a + sep + b
    ensures Join([a, b, c], sep) == a + sep + b + sep + c
  {
    assert Join([a, b], sep) == a + sep + Join([b], sep);
    assert Join([a, b, c], sep) == a + sep + Join([b, c], sep);
    assert Join([b, c], sep) == b + sep + Join([c], sep);
  }

  /** Building from ASCII-only text whose groups fit the limit keeps the
      joined texts whole. */
  lemma BuildShortAscii(id: nat, entry: Value, arguments: seq<seq<string>>, texts: seq<string>)
    requires AsciiFields(entry)
    requires |texts| == |arguments|
    requires forall i :: 0 <= i < |arguments| ==> GroupText(entry, arguments[i]) == texts[i] && |texts[i]| <= SearchLimit
    ensures Build(id, entry, arguments) == Some(QueryData(texts, id))
  {
    BuildAscii(id, entry, arguments);
    var q := Build(id, entry, arguments).value;
    forall i | 0 <= i < |arguments|
      ensures q.strings[i] == texts[i]
    {
      assert texts[i][..Min(|texts[i]|, SearchLimit)] == texts[i];
    }
    assert q.strings == texts;
  }

  /** The group texts of a record with two string fields. */
  lemma TwoFieldGroups(title: string, author: string)
    ensures
      var entry := Mapping(map["title" := Str(title), "author" := Str(author)]);
      && GroupText(entry, ["title", "author"]) == title + "\n" + author
      && GroupText(entry, ["author", "title", "title"]) == author + "\n" + title + "\n" + title
  {
    var entry := Mapping(map["title" := Str(title), "author" := Str(author)]);
    assert FieldTexts(entry, ["title", "author"]) == [title, author];
    assert FieldTexts(entry, ["author", "title", "title"]) == [author, title, title];
    JoinTwoThree(title, author, title, Separator);
    JoinTwoThree(author, title, title, Separator);
  }

  /** Two groups over a record with two short ASCII fields, the shape of
      the test `querydata_builds_correctly_multiples`. */
  lemma BuildTwoFields(title: string, author: string)
    requires IsAscii(title) && IsAscii(author)
    requires 2 * |title| + |author| + 2 <= SearchLimit
    ensures
      var entry := Mapping(map["title" := Str(title), "author" := Str(author)]);
      Build(0, entry, [["title", "author"], ["author", "title", "title"]])
        == Some(QueryData([title + "\n" + author, author + "\n" + title + "\n" + title], 0))
  {
    var entry := Mapping(map["title" := Str(title), "author" := Str(author)]);
    assert AsciiFields(entry);
    TwoFieldGroups(title, author);
    BuildShortAscii(0, entry, [["title", "author"], ["author", "title", "title"]],
      [title + "\n" + author, author + "\n" + title + "\n" + title]);
  }

  /** A group repeating a 1050-character field is cut to 1024 characters,
      as in the test `querydata_build_truncates_to_1024_chars`. */
  lemma BuildExampleTruncates()
    ensures
      var long: string := seq(1050, _ => 'a');
      var entry := Mapping(map["long" := Str(long)]);
      Build(0, entry, [["long", "long"]]) == Some(QueryData([seq(1024, _ => 'a')], 0))
  {
    var long: string := seq(1050, _ => 'a');
    var entry := Mapping(map["long" := Str(long)]);
    var g: seq<string> := ["long", "long"];
    assert IsAscii(long);
    assert AsciiFields(entry);
    BuildAscii(0, entry, [g]);
    var q := Build(0, entry, [g]).value;
    assert FieldTexts(entry, g) == [long, long];
    var t := GroupText(entry, g);
    JoinTwoThree(long, long, long, Separator);
    assert t == long + "\n" + long;
    assert q.strings[0] == t[..1024];
    assert t[..1024] == seq(1024, _ => 'a');
    assert q.strings == [seq(1024, _ => 'a')];
  }

  /** As written, a group whose text has a multi-byte character across the
      limit makes the build panic: here a title of 1023 ASCII characters
      followed by one non-ASCII character. */
  lemma BuildPanicsOnSplitChar(title: string, c: char)
    requires IsAscii(title) && |title| == SearchLimit - 1 && (c as int) >= 0x80
    ensures Build(0, Mapping(map["title" := Str(title + [c])]), [["title"]]) == None
  {
    var entry := Mapping(map["title" := Str(title + [c])]);
    assert FieldTexts(entry, ["title"]) == [title + [c]];
    assert GroupText(entry, ["title"]) == title + [c];
    TruncateSplitsChar(title, c, SearchLimit);
    assert BuildGroup(entry, ["title"]).None?;
  }

  /** A group's string cut to `SearchLimit` characters, as the code's
      comment says it should be; this never panics. */
  function BuildGroupChars(entry: Value, group: seq<string>): (r: string)
    ensures |r| <= SearchLimit
    ensures IsPrefix(r, GroupText(entry, group))
    ensures |GroupText(entry, group)| <= SearchLimit ==> r == GroupText(entry, group)
    ensures |GroupText(entry, group)| > SearchLimit ==> |r| == SearchLimit
  {
    TruncateChars(GroupText(entry, group), SearchLimit)
  }

  /** `QueryData::build` with the cut counted in characters: total, one
      string per group, each a prefix of its group's text of at most
      `SearchLimit` characters. */
  function BuildChars(id: nat, entry: Value, arguments: seq<seq<string>>): (q: QueryData)
    ensures q.id == id && Len(q) == |arguments|
    ensures forall i :: 0 <= i < |arguments| ==> q.strings[i] == BuildGroupChars(entry, arguments[i])
  {
    QueryData(seq(|arguments|, i requires 0 <= i < |arguments| => BuildGroupChars(entry, arguments[i])), id)
  }

  /** Where the code does not panic on ASCII text, the corrected build
      agrees with it. */
  lemma BuildCharsAgrees(id: nat, entry: Value, arguments: seq<seq<string>>)
    requires AsciiFields(entry)
    ensures Build(id, entry, arguments) == Some(BuildChars(id, entry, arguments))
  {
    var p := BuildChars(id, entry, arguments);
    forall i | 0 <= i < |arguments|
      ensures BuildGroup(entry, arguments[i]) == Some(p.strings[i])
    {
      GroupAscii(entry, arguments[i]);
      TruncateCharsAscii(GroupText(entry, arguments[i]), SearchLimit);
    }
    var q := Build(id, entry, arguments).value;
    assert q.strings == p.strings;
  }

  /** Whatever characters it holds, a group whose text fits in
      `SearchLimit` bytes is built the same way by both cuts. */
  lemma BuildGroupCharsFits(entry: Value, group: seq<string>)
    requires ByteLen(GroupText(entry, group)) <= SearchLimit
    ensures BuildGroup(entry, group) == Some(BuildGroupChars(entry, group))
  {
    ByteLenAtLeastLength(GroupText(entry, group));
  }

  /** The corrected build keeps a group that fits and cuts a longer one to
      exactly `SearchLimit` characters, whatever characters it holds. */
  lemma BuildCharsLimit(id: nat, entry: Value, arguments: seq<seq<string>>)
    ensures forall i :: 0 <= i < |arguments| ==>
      var t := GroupText(entry, arguments[i]);
      BuildChars(id, entry, arguments).strings[i] == if |t| <= SearchLimit then t else t[..SearchLimit]
  {
  }
}

=== FILE: scan.dfy ===
/** The body of one background scan: rank every record against a snapshot
    of the query boxes, drop the records whose rank is NaN, and sort the
    rest by decreasing score. Rust's `sort_by` is stable, so records with
    equal scores keep their order. */
module Scan {
  import opened Wrappers
  import opened Query
  import opened Search

  /** A ranked record and its score. */
  type Entry = (QueryData, real)

  /** Scores never increase along the sequence. */
  ghost predicate SortedDesc(s: seq<Entry>)
  {
    forall i, j :: 0 <= i < j < |s| ==> s[i].1 >= s[j].1
  }

  /** The entries scored exactly `v`, in order. */
  function WithScore(s: seq<Entry>, v: real): (r: seq<Entry>)
    ensures |r| <= |s|
    ensures forall e :: e in r ==> e in s && e.1 == v
    decreases |s|
  {
    if |s| == 0 then []
    else (if s[0].1 == v then [s[0]] else []) + WithScore(s[1..], v)
  }

  /** The records of `data` that have a rank, paired with it, in order. */
  function Scored(data: seq<QueryData>, search: seq<string>, sc: Scorer): (r: seq<Entry>)
    ensures forall e :: e in r ==> e.0 in data && RankQuery(e.0, search, sc) == Some(e.1)
    ensures forall d :: d in data && RankQuery(d, search, sc).Some? ==> (d, RankQuery(d, search, sc).value) in r
    decreases |data|
  {
    if |data| == 0 then []
    else
      var head := match RankQuery(data[0], search, sc)
        case None => []
        case Some(v) => [(data[0], v)];
      var r := head + Scored(data[1..], search, sc);
      assert forall d :: d in data ==> d == data[0] || d in data[1..];
      r
  }

  /** The filter keeps the order of `data`: filtering two stretches of
      records one after the other is filtering them together. */
  lemma {:induction false} ScoredAppend(d1: seq<QueryData>, d2: seq<QueryData>, search: seq<string>, sc: Scorer)
    ensures Scored(d1 + d2, search, sc) == Scored(d1, search, sc) + Scored(d2, search, sc)
    decreases |d1|
  {
    if |d1| > 0 {
      assert (d1 + d2)[0] == d1[0];
      assert (d1 + d2)[1..] == d1[1..] + d2;
      ScoredAppend(d1[1..], d2, search, sc);
    } else {
      assert d1 + d2 == d2;
    }
  }

  /** Places `x` before the first entry whose score is not above its own. */
  function Insert(x: Entry, s: seq<Entry>): (r: seq<Entry>)
    ensures |r| == |s| + 1
    ensures r[0] == x || (|s| > 0 && r[0] == s[0])
    decreases |s|
  {
    if |s| == 0 then [x]
    else if s[0].1 > x.1 then [s[0]] + Insert(x, s[1..])
    else [x] + s
  }

  /** Inserting into a sorted sequence keeps it sorted. */
  lemma {:induction false} InsertSorted(x: Entry, s: seq<Entry>)
    requires SortedDesc(s)
    ensures SortedDesc(Insert(x, s))
    decreases |s|
  {
    if |s| > 0 && s[0].1 > x.1 {
      var rest := Insert(x, s[1..]);
      InsertSorted(x, s[1..]);
      assert s[0].1 >= rest[0].1;
      var r := [s[0]] + rest;
      forall i, j | 0 <= i < j < |r|
        ensures r[i].1 >= r[j].1
      {
        if i > 0 {
          assert r[i] == rest[i - 1] && r[j] == rest[j - 1];
        } else if j > 1 {
          assert r[j] == rest[j - 1];
          assert rest[0].1 >= rest[j - 1].1;
        }
      }
    }
  }

  /** Inserting adds exactly `x`. */
  lemma {:induction false} InsertPermutes(x: Entry, s: seq<Entry>)
    ensures multiset(Insert(x, s)) == multiset(s) + multiset{x}
    decreases |s|
  {
    if |s| > 0 && s[0].1 > x.1 {
      InsertPermutes(x, s[1..]);
      assert s == [s[0]] + s[1..];
    }
  }

  /** A stable insertion sort by decreasing score. */
  function SortDesc(s: seq<Entry>): (r: seq<Entry>)
    ensures SortedDesc(r)
    ensures multiset(r) == multiset(s)
    decreases |s|
  {
    if |s| == 0 then []
    else
      var rest := SortDesc(s[1..]);
      InsertSorted(s[0], rest);
      InsertPermutes(s[0], rest);
      assert s == [s[0]] + s[1..];
      Insert(s[0], rest)
  }

  /** The scan a worker runs and sends back. */
  function ScanResults(data: seq<QueryData>, search: seq<string>, sc: Scorer): (r: seq<Entry>)
    ensures SortedDesc(r)
    ensures multiset(r) == multiset(Scored(data, search, sc))
  {
    SortDesc(Scored(data, search, sc))
  }

  lemma WithScoreCons(e: Entry, s: seq<Entry>, v: real)
    ensures WithScore([e] + s, v) == (if e.1 == v then [e] else []) + WithScore(s, v)
  {
    assert ([e] + s)[1..] == s;
  }

  /** Inserting `x` adds it at the front of its own score class and
      changes no other class. */
  lemma {:induction false} InsertWithScore(x: Entry, s: seq<Entry>, v: real)
    ensures WithScore(Insert(x, s), v) == (if x.1 == v then [x] else []) + WithScore(s, v)
    decreases |s|
  {
    if |s| == 0 {
      WithScoreCons(x, [], v);
    } else if s[0].1 > x.1 {
      var rest := Insert(x, s[1..]);
      var tail := WithScore(s[1..], v);
      assert Insert(x, s) == [s[0]] + rest;
      InsertWithScore(x, s[1..], v);
      WithScoreCons(s[0], rest, v);
      assert WithScore(s, v) == (if s[0].1 == v then [s[0]] else []) + tail;
      if x.1 == v {
        assert s[0].1 != v;
        assert WithScore(Insert(x, s), v) == WithScore(rest, v) == [x] + tail;
        assert WithScore(s, v) == tail;
      } else {
        assert WithScore(rest, v) == tail;
      }
    } else {
      WithScoreCons(x, s, v);
    }
  }

  /** The sort is stable: each score class keeps its input order. */
  lemma {:induction false} SortStable(s: seq<Entry>, v: real)
    ensures WithScore(SortDesc(s), v) == WithScore(s, v)
    decreases |s|
  {
    if |s| > 0 {
      SortStable(s[1..], v);
      InsertWithScore(s[0], SortDesc(s[1..]), v);
    }
  }

  lemma HeadInWithScore(s: seq<Entry>)
    requires |s| > 0
    ensures WithScore(s, s[0].1) == [s[0]] + WithScore(s[1..], s[0].1)
  {
  }

  lemma WithScoreTail(s: seq<Entry>, v: real)
    requires |s| > 0 && s[0].1 != v
    ensures WithScore(s, v) == WithScore(s[1..], v)
  {
  }

  /** The first entry of a sorted sequence has the highest score. */
  lemma SortedHeadMax(s: seq<Entry>, e: Entry)
    requires SortedDesc(s) && e in s
    ensures s[0].1 >= e.1
  {
    var j :| 0 <= j < |s| && s[j] == e;
  }

  /** Two sorted sequences with the same score classes start alike. */
  lemma SameClassesSameHead(t: seq<Entry>, u: seq<Entry>)
    requires SortedDesc(t) && SortedDesc(u) && |t| > 0 && |u| > 0
    requires WithScore(t, t[0].1) == WithScore(u, t[0].1)
    requires WithScore(t, u[0].1) == WithScore(u, u[0].1)
    ensures t[0] == u[0]
  {
    var a, b := t[0].1, u[0].1;
    HeadInWithScore(t);
    HeadInWithScore(u);
    var ta, ub := WithScore(t, a), WithScore(u, b);
    assert ta[0] == t[0];
    assert t[0] in WithScore(u, a);
    SortedHeadMax(u, t[0]);
    assert ub[0] == u[0];
    assert u[0] in WithScore(t, b);
    SortedHeadMax(t, u[0]);
    assert a == b;
  }

  /** Sequences with a common head and the same score classes have tails
      with the same score classes. */
  lemma SameClassesTails(t: seq<Entry>, u: seq<Entry>, v: real)
    requires |t| > 0 && |u| > 0 && t[0] == u[0]
    requires WithScore(t, v) == WithScore(u, v)
    ensures WithScore(t[1..], v) == WithScore(u[1..], v)
  {
    if v != t[0].1 {
      WithScoreTail(t, v);
      WithScoreTail(u, v);
    } else {
      HeadInWithScore(t);
      HeadInWithScore(u);
      assert WithScore(t, v)[1..] == WithScore(t[1..], v);
      assert WithScore(u, v)[1..] == WithScore(u[1..], v);
    }
  }

  /** Only the empty sequence has no entries in any score class. */
  lemma EmptyClasses(t: seq<Entry>, u: seq<Entry>)
    requires |t| == 0
    requires forall v :: WithScore(t, v) == WithScore(u, v)
    ensures |u| == 0
  {
    if |u| > 0 {
      HeadInWithScore(u);
    }
  }

  lemma AllTailClasses(t: seq<Entry>, u: seq<Entry>)
    requires |t| > 0 && |u| > 0 && t[0] == u[0]
    requires forall v :: WithScore(t, v) == WithScore(u, v)
    ensures forall v :: WithScore(t[1..], v) == WithScore(u[1..], v)
  {
    forall v
      ensures WithScore(t[1..], v) == WithScore(u[1..], v)
    {
      SameClassesTails(t, u, v);
    }
  }

  /** A sorted sequence is determined by its score classes: two sorted
      sequences whose classes agree are equal. */
  lemma {:induction false} SortedClassesDetermine(t: seq<Entry>, u: seq<Entry>)
    requires SortedDesc(t) && SortedDesc(u)
    requires forall v :: WithScore(t, v) == WithScore(u, v)
    ensures t == u
    decreases |t| + |u|
  {
    if |t| == 0 {
      EmptyClasses(t, u);
    } else if |u| == 0 {
      EmptyClasses(u, t);
    } else {
      assert WithScore(t, t[0].1) == WithScore(u, t[0].1);
      assert WithScore(t, u[0].1) == WithScore(u, u[0].1);
      SameClassesSameHead(t, u);
      AllTailClasses(t, u);
      SortedClassesDetermine(t[1..], u[1..]);
      assert t == [t[0]] + t[1..];
      assert u == [u[0]] + u[1..];
    }
  }

  /** Any stable sort by decreasing score returns what `SortDesc` returns,
      so the model's insertion sort stands for Rust's merge sort. */
  lemma StableSortUnique(s: seq<Entry>, t: seq<Entry>)
    requires SortedDesc(t)
    requires forall v :: WithScore(t, v) == WithScore(s, v)
    ensures t == SortDesc(s)
  {
    forall v
      ensures WithScore(t, v) == WithScore(SortDesc(s), v)
    {
      SortStable(s, v);
    }
    SortedClassesDetermine(t, SortDesc(s));
  }

  /** The scan keeps exactly the records with a rank, each with its rank,
      sorted by decreasing score, and records with equal scores appear in
      the order of `data`. */
  lemma ScanContents(data: seq<QueryData>, search: seq<string>, sc: Scorer)
    ensures forall e :: e in ScanResults(data, search, sc) ==>
      e.0 in data && RankQuery(e.0, search, sc) == Some(e.1)
    ensures forall d :: d in data && RankQuery(d, search, sc).Some? ==>
      (d, RankQuery(d, search, sc).value) in ScanResults(data, search, sc)
    ensures forall v :: WithScore(ScanResults(data, search, sc), v) == WithScore(Scored(data, search, sc), v)
  {
    var r := ScanResults(data, search, sc);
    var s := Scored(data, search, sc);
    forall e | e in r
      ensures e in s
    {
      assert e in multiset(r);
    }
    forall d | d in data && RankQuery(d, search, sc).Some?
      ensures (d, RankQuery(d, search, sc).value) in r
    {
      assert (d, RankQuery(d, search, sc).value) in multiset(s);
    }
    forall v
      ensures WithScore(r, v) == WithScore(s, v)
    {
      SortStable(s, v);
    }
  }

  /** Record ids strictly increase along the sequence, as they do for the
      records the program builds (each record's id is its index). */
  ghost predicate IdsIncrease(s: seq<Entry>)
  {
    forall i, j :: 0 <= i < j < |s| ==> s[i].0.id < s[j].0.id
  }

  /** Entries with equal scores appear by increasing id. */
  ghost predicate TiesById(s: seq<Entry>)
  {
    forall i, j :: 0 <= i < j < |s| && s[i].1 == s[j].1 ==> s[i].0.id < s[j].0.id
  }

  /** Sorted by decreasing score, and entries with equal scores by
      increasing id. */
  ghost predicate SortedScoreThenId(s: seq<Entry>)
  {
    SortedDesc(s) && TiesById(s)
  }

  /** The first record's id is below the id of every ranked later record. */
  lemma ScoredAfterFirst(data: seq<QueryData>, search: seq<string>, sc: Scorer)
    requires |data| > 0
    requires forall i, j :: 0 <= i < j < |data| ==> data[i].id < data[j].id
    ensures forall e :: e in Scored(data[1..], search, sc) ==> data[0].id < e.0.id
  {
    forall e | e in Scored(data[1..], search, sc)
      ensures data[0].id < e.0.id
    {
      var k :| 0 <= k < |data[1..]| && data[1..][k] == e.0;
      assert data[k + 1] == e.0;
    }
  }

  /** The ranked records keep the order of `data`, so their ids increase
      when the ids in `data` do. */
  lemma {:induction false} ScoredIdsIncrease(data: seq<QueryData>, search: seq<string>, sc: Scorer)
    requires forall i, j :: 0 <= i < j < |data| ==> data[i].id < data[j].id
    ensures IdsIncrease(Scored(data, search, sc))
    decreases |data|
  {
    if |data| > 0 {
      var rest := Scored(data[1..], search, sc);
      ScoredIdsIncrease(data[1..], search, sc);
      ScoredAfterFirst(data, search, sc);
      var r := Scored(data, search, sc);
      if RankQuery(data[0], search, sc).Some? {
        assert r == [(data[0], RankQuery(data[0], search, sc).value)] + rest;
        PrependIdsIncrease(r[0], rest);
      } else {
        assert r == rest;
      }
    }
  }

  lemma PrependIdsIncrease(x: Entry, s: seq<Entry>)
    requires IdsIncrease(s)
    requires forall e :: e in s ==> x.0.id < e.0.id
    ensures IdsIncrease([x] + s)
  {
    var r := [x] + s;
    forall i, j | 0 <= i < j < |r|
      ensures r[i].0.id < r[j].0.id
    {
      assert r[j] == s[j - 1];
      if i > 0 {
        assert r[i] == s[i - 1];
      } else {
        assert r[j] in s;
      }
    }
  }

  /** Insertion adds `x` and nothing else. */
  lemma {:induction false} InsertMembers(x: Entry, s: seq<Entry>)
    ensures forall e :: e in Insert(x, s) ==> e == x || e in s
    decreases |s|
  {
    if |s| > 0 && s[0].1 > x.1 {
      InsertMembers(x, s[1..]);
      assert Insert(x, s) == [s[0]] + Insert(x, s[1..]);
      forall e | e in Insert(x, s)
        ensures e == x || e in s
      {
        if e != s[0] {
          assert e in Insert(x, s[1..]);
        }
      }
    }
  }

  /** A later entry tied with the head has a larger id. */
  lemma HeadTie(s: seq<Entry>, e: Entry)
    requires TiesById(s) && |s| > 0
    requires e in s[1..] && e.1 == s[0].1
    ensures s[0].0.id < e.0.id
  {
    var k :| 0 <= k < |s[1..]| && s[1..][k] == e;
    assert s[k + 1] == e;
  }

  /** Inserting an entry whose id is below every id already present keeps
      ties in id order. */
  lemma {:induction false} InsertTiesById(x: Entry, s: seq<Entry>)
    requires TiesById(s)
    requires forall e :: e in s ==> x.0.id < e.0.id
    ensures TiesById(Insert(x, s))
    decreases |s|
  {
    if |s| > 0 && s[0].1 > x.1 {
      var rest := Insert(x, s[1..]);
      InsertTiesById(x, s[1..]);
      InsertMembers(x, s[1..]);
      var r := [s[0]] + rest;
      assert Insert(x, s) == r;
      forall i, j | 0 <= i < j < |r| && r[i].1 == r[j].1
        ensures r[i].0.id < r[j].0.id
      {
        assert r[j] == rest[j - 1];
        if i > 0 {
          assert r[i] == rest[i - 1];
        } else {
          assert r[j] != x;
          HeadTie(s, r[j]);
        }
      }
    } else if |s| > 0 {
      var r := [x] + s;
      forall i, j | 0 <= i < j < |r| && r[i].1 == r[j].1
        ensures r[i].0.id < r[j].0.id
      {
        assert r[j] == s[j - 1];
        if i > 0 {
          assert r[i] == s[i - 1];
        } else {
          assert r[j] in s;
        }
      }
    }
  }

  /** Inserting an entry whose id is below every id already present keeps
      the order by score, then id. */
  lemma InsertScoreThenId(x: Entry, s: seq<Entry>)
    requires SortedScoreThenId(s)
    requires forall e :: e in s ==> x.0.id < e.0.id
    ensures SortedScoreThenId(Insert(x, s))
  {
    InsertSorted(x, s);
    InsertTiesById(x, s);
  }

  /** Sorting records whose ids increase breaks score ties by id. */
  lemma {:induction false} SortScoreThenId(s: seq<Entry>)
    requires IdsIncrease(s)
    ensures SortedScoreThenId(SortDesc(s))
    decreases |s|
  {
    if |s| > 0 {
      var rest := SortDesc(s[1..]);
      SortScoreThenId(s[1..]);
      forall e | e in rest
        ensures s[0].0.id < e.0.id
      {
        assert e in multiset(s[1..]);
        var k :| 0 <= k < |s[1..]| && s[1..][k] == e;
        assert s[k + 1] == e;
      }
      InsertScoreThenId(s[0], rest);
    }
  }

  /** The scan lists equal scores in increasing id order when the records
      come in increasing id order. */
  lemma ScanTiesById(data: seq<QueryData>, search: seq<string>, sc: Scorer)
    requires forall i, j :: 0 <= i < j < |data| ==> data[i].id < data[j].id
    ensures SortedScoreThenId(ScanResults(data, search, sc))
  {
    ScoredIdsIncrease(data, search, sc);
    SortScoreThenId(Scored(data, search, sc));
  }

  /** Two records, one matching and one not: the scan lists the matching
      one alone. */
  lemma ScanExcludesUnmatched(q1: QueryData, q2: QueryData, search: seq<string>, sc: Scorer)
    requires RankQuery(q1, search, sc).Some? && RankQuery(q2, search, sc).None?
    ensures ScanResults([q1, q2], search, sc) == [(q1, RankQuery(q1, search, sc).value)]
  {
    assert [q1, q2][1..] == [q2];
    assert [q2][1..] == [];
    assert Scored([q2], search, sc) == [] + Scored([], search, sc);
    assert Scored([q1, q2], search, sc) == [(q1, RankQuery(q1, search, sc).value)] + Scored([q2], search, sc);
  }
}

=== FILE: search.dfy ===
/** Ranking one flattened record against the query boxes. The fuzzy
    matcher and the score normalisation are external: they are carried as
    uninterpreted functions in a `Scorer`. An f64 NaN is `None`. */
module Search {
  import opened Wrappers
  import opened Query

  /** The matcher: a raw score, or `None` for "no match". */
  type Matcher = (string, string) -> Option<real>

  /** The matcher and the map squashing raw scores into (0, 1). */
  datatype Scorer = Scorer(matcher: Matcher, scoreMap: real -> real)

  /** `Iterator::zip`: pairs up elements until the shorter side ends. */
  function Zip<A, B>(a: seq<A>, b: seq<B>): (r: seq<(A, B)>)
    ensures |r| == Min(|a|, |b|)
    ensures forall i :: 0 <= i < |r| ==> r[i] == (a[i], b[i])
    decreases |a|
  {
    if |a| == 0 || |b| == 0 then []
    else [(a[0], b[0])] + Zip(a[1..], b[1..])
  }

  /** f64 addition where NaN absorbs everything. */
  function Add(x: Option<real>, y: Option<real>): Option<real>
  {
    if x.Some? && y.Some? then Some(x.value + y.value) else None
  }

  /** `Iterator::sum` over f64: a left fold of `Add` from zero. The sum is
      NaN exactly when some term is. */
  function Sum(xs: seq<Option<real>>): (r: Option<real>)
    ensures r.None? <==> exists i :: 0 <= i < |xs| && xs[i].None?
    decreases |xs|
  {
    if |xs| == 0 then Some(0.0)
    else
      var prefix := xs[..|xs| - 1];
      assert forall i :: 0 <= i < |prefix| ==> prefix[i] == xs[i];
      Add(Sum(prefix), xs[|xs| - 1])
  }

  /** The contribution of one (needle, haystack) pair. */
  function PairScore(sc: Scorer, needle: string, haystack: string): (r: Option<real>)
    ensures r.None? <==> sc.matcher(needle, haystack).None?
  {
    var m := sc.matcher(needle, haystack);
    if m.Some? then Some(sc.scoreMap(m.value)) else None
  }

  /** f64 multiplication of a mapped score by its weight. */
  function Weigh(x: real, weight: real): real
  {
    x * weight
  }

  /** The weighted contribution of one pair. */
  function WeightedPairScore(sc: Scorer, needle: string, haystack: string, weight: real): (r: Option<real>)
    ensures r.None? <==> sc.matcher(needle, haystack).None?
  {
    var m := sc.matcher(needle, haystack);
    if m.Some? then Some(Weigh(sc.scoreMap(m.value), weight)) else None
  }

  /** The per-pair terms `rank_query` sums. */
  function Terms(q: QueryData, search: seq<string>, sc: Scorer): seq<Option<real>>
  {
    var pairs := Zip(search, q.strings);
    seq(|pairs|, i requires 0 <= i < |pairs| => PairScore(sc, pairs[i].0, pairs[i].1))
  }

  /** `rank_query`. */
  function RankQuery(q: QueryData, search: seq<string>, sc: Scorer): Option<real>
  {
    Sum(Terms(q, search, sc))
  }

  /** The per-pair terms `rank_query_weighted` sums. */
  function WeightedTerms(q: QueryData, search: seq<string>, weights: seq<real>, sc: Scorer): seq<Option<real>>
  {
    var pairs := Zip(Zip(search, q.strings), weights);
    seq(|pairs|, i requires 0 <= i < |pairs| => WeightedPairScore(sc, pairs[i].0.0, pairs[i].0.1, pairs[i].1))
  }

  /** `rank_query_weighted`. */
  function RankQueryWeighted(q: QueryData, search: seq<string>, weights: seq<real>, sc: Scorer): Option<real>
  {
    Sum(WeightedTerms(q, search, weights, sc))
  }

  /** Number of pairs `rank_query` looks at. */
  function Considered(q: QueryData, search: seq<string>): nat
  {
    Min(|search|, |q.strings|)
  }

  /** Number of triples `rank_query_weighted` looks at. */
  function ConsideredWeighted(q: QueryData, search: seq<string>, weights: seq<real>): nat
  {
    Min(Min(|search|, |q.strings|), |weights|)
  }

  /** The first `n` pairs all match. */
  ghost predicate AllMatch(q: QueryData, search: seq<string>, sc: Scorer, n: nat)
    requires n <= |search| && n <= |q.strings|
  {
    forall i :: 0 <= i < n ==> sc.matcher(search[i], q.strings[i]).Some?
  }

  /** The sum of the mapped scores of the first `n` pairs, added in order. */
  ghost function MatchedTotal(q: QueryData, search: seq<string>, sc: Scorer, n: nat): real
    requires n <= |search| && n <= |q.strings|
    requires AllMatch(q, search, sc, n)
  {
    if n == 0 then 0.0
    else MatchedTotal(q, search, sc, n - 1) + sc.scoreMap(sc.matcher(search[n - 1], q.strings[n - 1]).value)
  }

  /** The sum of the weighted mapped scores of the first `n` triples. */
  ghost function WeightedMatchedTotal(q: QueryData, search: seq<string>, weights: seq<real>, sc: Scorer, n: nat): real
    requires n <= |search| && n <= |q.strings| && n <= |weights|
    requires AllMatch(q, search, sc, n)
  {
    if n == 0 then 0.0
    else
      var score := sc.scoreMap(sc.matcher(search[n - 1], q.strings[n - 1]).value);
      WeightedMatchedTotal(q, search, weights, sc, n - 1) + Weigh(score, weights[n - 1])
  }

  lemma WeightedPairScoreMatched(sc: Scorer, needle: string, haystack: string, weight: real)
    requires sc.matcher(needle, haystack).Some?
    ensures WeightedPairScore(sc, needle, haystack, weight)
      == Some(Weigh(sc.scoreMap(sc.matcher(needle, haystack).value), weight))
  {
  }

  lemma TermsShape(q: QueryData, search: seq<string>, sc: Scorer)
    ensures |Terms(q, search, sc)| == Considered(q, search)
    ensures forall i :: 0 <= i < Considered(q, search) ==>
      Terms(q, search, sc)[i] == PairScore(sc, search[i], q.strings[i])
  {
  }

  lemma WeightedTermsShape(q: QueryData, search: seq<string>, weights: seq<real>, sc: Scorer)
    ensures |WeightedTerms(q, search, weights, sc)| == ConsideredWeighted(q, search, weights)
    ensures forall i :: 0 <= i < ConsideredWeighted(q, search, weights) ==>
      WeightedTerms(q, search, weights, sc)[i] == WeightedPairScore(sc, search[i], q.strings[i], weights[i])
  {
    var inner := Zip(search, q.strings);
    var pairs := Zip(inner, weights);
    forall i | 0 <= i < |pairs|
      ensures pairs[i] == ((search[i], q.strings[i]), weights[i])
    {
      assert pairs[i] == (inner[i], weights[i]);
    }
  }

  /** The rank is NaN exactly when one of the considered pairs has no
      match; boxes or strings beyond the shorter side play no part. */
  lemma RankQueryUndefined(q: QueryData, search: seq<string>, sc: Scorer)
    ensures RankQuery(q, search, sc).None? <==>
      exists i :: 0 <= i < Considered(q, search) && sc.matcher(search[i], q.strings[i]).None?
  {
    TermsShape(q, search, sc);
    var ts := Terms(q, search, sc);
    if RankQuery(q, search, sc).None? {
      var i :| 0 <= i < |ts| && ts[i].None?;
      assert sc.matcher(search[i], q.strings[i]).None?;
    }
  }

  /** The sum, in order, of the first `n` terms, all of them numbers. */
  ghost function Total(xs: seq<Option<real>>, n: nat): real
    requires n <= |xs|
    requires forall i :: 0 <= i < n ==> xs[i].Some?
  {
    if n == 0 then 0.0 else Total(xs, n - 1) + xs[n - 1].value
  }

  /** A sum without NaN terms is the total of its terms. */
  lemma {:induction false} SumDefined(xs: seq<Option<real>>, k: nat)
    requires k <= |xs|
    requires forall i :: 0 <= i < k ==> xs[i].Some?
    ensures Sum(xs[..k]) == Some(Total(xs, k))
  {
    if k > 0 {
      assert xs[..k][..k - 1] == xs[..k - 1];
      SumDefined(xs, k - 1);
    }
  }

  lemma {:induction false} TermsTotal(q: QueryData, search: seq<string>, sc: Scorer, k: nat)
    requires k <= Considered(q, search)
    requires AllMatch(q, search, sc, k)
    ensures Total(Terms(q, search, sc), k) == MatchedTotal(q, search, sc, k)
  {
    TermsShape(q, search, sc);
    if k > 0 {
      TermsTotal(q, search, sc, k - 1);
    }
  }

  /** When every considered pair matches, the rank is the sum of the mapped
      scores of those pairs; with no pairs it is zero. */
  lemma RankQueryValue(q: QueryData, search: seq<string>, sc: Scorer)
    requires AllMatch(q, search, sc, Considered(q, search))
    ensures RankQuery(q, search, sc) == Some(MatchedTotal(q, search, sc, Considered(q, search)))
    ensures Considered(q, search) == 0 ==> RankQuery(q, search, sc) == Some(0.0)
  {
    var n := Considered(q, search);
    TermsShape(q, search, sc);
    SumDefined(Terms(q, search, sc), n);
    TermsTotal(q, search, sc, n);
    assert Terms(q, search, sc)[..n] == Terms(q, search, sc);
  }

  /** Only the first `Considered` boxes and strings matter. */
  lemma RankQueryIgnoresExtra(q: QueryData, search: seq<string>, sc: Scorer)
    ensures var n := Considered(q, search);
      RankQuery(q, search, sc) == RankQuery(q.(strings := q.strings[..n]), search[..n], sc)
  {
    var n := Considered(q, search);
    var q' := q.(strings := q.strings[..n]);
    TermsShape(q, search, sc);
    TermsShape(q', search[..n], sc);
    assert Terms(q, search, sc) == Terms(q', search[..n], sc);
  }

  /** The weighted rank is NaN exactly when one of the considered pairs
      has no match. */
  lemma RankQueryWeightedUndefined(q: QueryData, search: seq<string>, weights: seq<real>, sc: Scorer)
    ensures RankQueryWeighted(q, search, weights, sc).None? <==>
      exists i :: 0 <= i < ConsideredWeighted(q, search, weights) && sc.matcher(search[i], q.strings[i]).None?
  {
    WeightedTermsShape(q, search, weights, sc);
    var ts := WeightedTerms(q, search, weights, sc);
    if RankQueryWeighted(q, search, weights, sc).None? {
      var i :| 0 <= i < |ts| && ts[i].None?;
      assert sc.matcher(search[i], q.strings[i]).None?;
    }
  }

  lemma {:induction false} WeightedTermsTotal(q: QueryData, search: seq<string>, weights: seq<real>, sc: Scorer, k: nat)
    requires k <= ConsideredWeighted(q, search, weights)
    requires AllMatch(q, search, sc, k)
    ensures Total(WeightedTerms(q, search, weights, sc), k) == WeightedMatchedTotal(q, search, weights, sc, k)
  {
    WeightedTermsShape(q, search, weights, sc);
    if k > 0 {
      WeightedTermsTotal(q, search, weights, sc, k - 1);
      WeightedPairScoreMatched(sc, search[k - 1], q.strings[k - 1], weights[k - 1]);
    }
  }

  /** When every considered pair matches, the weighted rank is the sum of
      each mapped score times its weight. */
  lemma RankQueryWeightedValue(q: QueryData, search: seq<string>, weights: seq<real>, sc: Scorer)
    requires AllMatch(q, search, sc, ConsideredWeighted(q, search, weights))
    ensures RankQueryWeighted(q, search, weights, sc)
      == Some(WeightedMatchedTotal(q, search, weights, sc, ConsideredWeighted(q, search, weights)))
  {
    var n := ConsideredWeighted(q, search, weights);
    WeightedTermsShape(q, search, weights, sc);
    SumDefined(WeightedTerms(q, search, weights, sc), n);
    WeightedTermsTotal(q, search, weights, sc, n);
    assert WeightedTerms(q, search, weights, sc)[..n] == WeightedTerms(q, search, weights, sc);
  }

  /** Unit weights, at least as many as the pairs, give the plain rank. */
  lemma RankQueryWeightedUnit(q: QueryData, search: seq<string>, weights: seq<real>, sc: Scorer)
    requires |weights| >= Considered(q, search)
    requires forall i :: 0 <= i < |weights| ==> weights[i] == 1.0
    ensures RankQueryWeighted(q, search, weights, sc) == RankQuery(q, search, sc)
  {
    TermsShape(q, search, sc);
    WeightedTermsShape(q, search, weights, sc);
    assert WeightedTerms(q, search, weights, sc) == Terms(q, search, sc);
  }

  /** The score map squashes every raw score into the open interval
      (0, 1), as the logistic function does. */
  ghost predicate MapsIntoUnit(sc: Scorer)
  {
    forall x :: 0.0 < sc.scoreMap(x) < 1.0
  }

  lemma {:induction false} MatchedTotalBounds(q: QueryData, search: seq<string>, sc: Scorer, n: nat)
    requires n <= |search| && n <= |q.strings|
    requires AllMatch(q, search, sc, n)
    requires MapsIntoUnit(sc)
    ensures n == 0 ==> MatchedTotal(q, search, sc, n) == 0.0
    ensures n > 0 ==> 0.0 < MatchedTotal(q, search, sc, n) < n as real
  {
    if n > 0 {
      assert AllMatch(q, search, sc, n - 1);
      MatchedTotalBounds(q, search, sc, n - 1);
      var raw := sc.matcher(search[n - 1], q.strings[n - 1]).value;
      var m := sc.scoreMap(raw);
      assert 0.0 < sc.scoreMap(raw) < 1.0;
      assert MatchedTotal(q, search, sc, n) == MatchedTotal(q, search, sc, n - 1) + m;
    }
  }

  /** With a score map into (0, 1), a defined rank over `n` pairs lies
      strictly between 0 and `n`, and is 0 when no pair is considered. */
  lemma RankQueryBounded(q: QueryData, search: seq<string>, sc: Scorer)
    requires MapsIntoUnit(sc)
    ensures var n := Considered(q, search);
      RankQuery(q, search, sc).Some? ==>
        && (n == 0 ==> RankQuery(q, search, sc).value == 0.0)
        && (n > 0 ==> 0.0 < RankQuery(q, search, sc).value < n as real)
  {
    var n := Considered(q, search);
    if RankQuery(q, search, sc).Some? {
      RankQueryUndefined(q, search, sc);
      assert AllMatch(q, search, sc, n);
      RankQueryValue(q, search, sc);
      MatchedTotalBounds(q, search, sc, n);
    }
  }
}

=== FILE: text.dfy ===
/** Strings as Rust stores them: a sequence of Unicode scalar values whose
    length, for `String::len` and `String::truncate`, is counted in bytes of
    the UTF-8 encoding. Also `join` and its inverse, splitting on a
    separator character. */
module Text {
  import opened Wrappers

  /** Number of bytes UTF-8 uses for one scalar value. */
  function Utf8Width(c: char): (w: nat)
    ensures 1 <= w <= 4
    ensures w == 1 <==> (c as int) < 0x80
  {
    if (c as int) < 0x80 then 1
    else if (c as int) < 0x800 then 2
    else if (c as int) < 0x1_0000 then 3
    else 4
  }

  /** `String::len`: the length of the UTF-8 encoding. */
  function ByteLen(s: string): nat
  {
    if |s| == 0 then 0 else Utf8Width(s[0]) + ByteLen(s[1..])
  }

  predicate IsAscii(s: string)
  {
    forall i :: 0 <= i < |s| ==> (s[i] as int) < 0x80
  }

  /** `p` is the first `|p|` characters of `s`. */
  predicate IsPrefix(p: string, s: string)
  {
    |p| <= |s| && p == s[..|p|]
  }

  /** `str::is_char_boundary(n)`: byte offset `n` falls between two
      scalar values (or at either end of the string). */
  ghost predicate IsCharBoundary(s: string, n: nat)
  {
    exists k :: 0 <= k <= |s| && ByteLen(s[..k]) == n
  }

  lemma {:induction false} ByteLenAppend(a: string, b: string)
    ensures ByteLen(a + b) == ByteLen(a) + ByteLen(b)
    decreases |a|
  {
    if |a| > 0 {
      assert (a + b)[1..] == a[1..] + b;
      ByteLenAppend(a[1..], b);
    } else {
      assert a + b == b;
    }
  }

  lemma {:induction false} ByteLenAscii(s: string)
    requires IsAscii(s)
    ensures ByteLen(s) == |s|
    decreases |s|
  {
    if |s| > 0 {
      ByteLenAscii(s[1..]);
    }
  }

  /** The byte length never falls below the number of scalar values. */
  lemma {:induction false} ByteLenAtLeastLength(s: string)
    ensures |s| <= ByteLen(s)
    decreases |s|
  {
    if |s| > 0 {
      ByteLenAtLeastLength(s[1..]);
    }
  }

  /** `String::truncate(n)`: a string already at most `n` bytes long is
      left alone; a longer one is cut to its first `n` bytes, and `None`
      stands for the panic Rust raises when byte `n` is inside a scalar
      value. */
  function Truncate(s: string, n: nat): (r: Option<string>)
    ensures ByteLen(s) <= n ==> r == Some(s)
    ensures r.Some? ==> IsPrefix(r.value, s)
    ensures r.Some? ==> ByteLen(r.value) == Min(ByteLen(s), n)
    decreases |s|
  {
    if |s| == 0 then Some(s)
    else if n == 0 then Some([])
    else if Utf8Width(s[0]) > n then None
    else match Truncate(s[1..], n - Utf8Width(s[0]))
      case None => None
      case Some(t) =>
        assert s == [s[0]] + s[1..];
        Some([s[0]] + t)
  }

  /** Past a first scalar value that fits in `n` bytes, the boundaries
      of `s` at `n` are those of the rest at `n` minus its width. */
  lemma BoundaryStep(s: string, n: nat)
    requires |s| > 0 && 0 < n && Utf8Width(s[0]) <= n
    ensures IsCharBoundary(s, n) <==> IsCharBoundary(s[1..], n - Utf8Width(s[0]))
  {
    var w := Utf8Width(s[0]);
    if IsCharBoundary(s, n) {
      var k :| 0 <= k <= |s| && ByteLen(s[..k]) == n;
      assert k > 0;
      assert s[..k][1..] == s[1..][..k - 1];
      assert ByteLen(s[1..][..k - 1]) == n - w;
    }
    if IsCharBoundary(s[1..], n - w) {
      var k :| 0 <= k <= |s[1..]| && ByteLen(s[1..][..k]) == n - w;
      assert s[..k + 1][1..] == s[1..][..k];
      assert ByteLen(s[..k + 1]) == n;
    }
  }

  /** Truncation succeeds exactly when the string already fits or the cut
      lands on a scalar-value boundary. */
  lemma {:induction false} TruncateDefined(s: string, n: nat)
    ensures Truncate(s, n).Some? <==> ByteLen(s) <= n || IsCharBoundary(s, n)
    decreases |s|
  {
    if |s| == 0 {
    } else if n == 0 {
      assert ByteLen(s[..0]) == 0;
    } else if Utf8Width(s[0]) > n {
      forall k | 0 <= k <= |s|
        ensures ByteLen(s[..k]) != n
      {
        if k > 0 {
          assert s[..k][0] == s[0];
        }
      }
    } else {
      TruncateDefined(s[1..], n - Utf8Width(s[0]));
      BoundaryStep(s, n);
    }
  }

  /** On ASCII text bytes and scalar values coincide: truncation never
      panics and keeps the first `min(|s|, n)` characters. */
  lemma TruncateAscii(s: string, n: nat)
    requires IsAscii(s)
    ensures Truncate(s, n) == Some(s[..Min(|s|, n)])
  {
    ByteLenAscii(s);
    if ByteLen(s) > n {
      TruncateDefined(s, n);
      assert s[..n] == s[..n][..n];
      ByteLenAscii(s[..n]);
      assert IsCharBoundary(s, n);
      var t := Truncate(s, n).value;
      assert IsAscii(t);
      ByteLenAscii(t);
    }
  }

  /** A cut that lands inside a multi-byte scalar value right after
      ASCII text panics: `n - 1` ASCII characters followed by a character
      of two or more bytes cannot be cut at byte `n`. */
  lemma {:induction false} TruncateSplitsChar(a: string, c: char, n: nat)
    requires IsAscii(a) && |a| + 1 == n && Utf8Width(c) >= 2
    ensures Truncate(a + [c], n) == None
    decreases |a|
  {
    var s := a + [c];
    if |a| > 0 {
      assert s[0] == a[0];
      assert s[1..] == a[1..] + [c];
      TruncateSplitsChar(a[1..], c, n - 1);
    }
  }

  /** Cutting to the first `n` scalar values, which never fails. */
  function TruncateChars(s: string, n: nat): (r: string)
    ensures IsPrefix(r, s)
    ensures |r| == Min(|s|, n)
  {
    s[..Min(|s|, n)]
  }

  /** On ASCII text the byte cut and the scalar-value cut agree. */
  lemma TruncateCharsAscii(s: string, n: nat)
    requires IsAscii(s)
    ensures Truncate(s, n) == Some(TruncateChars(s, n))
  {
    TruncateAscii(s, n);
  }

  /** `[String]::join(sep)`. */
  function Join(parts: seq<string>, sep: string): string
  {
    if |parts| == 0 then []
    else if |parts| == 1 then parts[0]
    else parts[0] + sep + Join(parts[1..], sep)
  }

  /** `str::split(c)`: the pieces between occurrences of `c`; there is
      always at least one piece. */
  function Split(s: string, c: char): (r: seq<string>)
    ensures |r| >= 1
    ensures forall i :: 0 <= i < |r| ==> c !in r[i]
    decreases |s|
  {
    if |s| == 0 then [[]]
    else
      var rest := Split(s[1..], c);
      if s[0] == c then [[]] + rest
      else [[s[0]] + rest[0]] + rest[1..]
  }

  /** Splitting a string that does not start with a separator run: the
      leading text extends the first piece. */
  lemma {:induction false} SplitPrefix(p: string, tail: string, c: char)
    requires c !in p
    ensures Split(p + tail, c) == [p + Split(tail, c)[0]] + Split(tail, c)[1..]
    decreases |p|
  {
    if |p| > 0 {
      assert (p + tail)[1..] == p[1..] + tail;
      SplitPrefix(p[1..], tail, c);
      assert [p[0]] + (p[1..] + Split(tail, c)[0]) == p + Split(tail, c)[0];
    } else {
      var r := Split(tail, c);
      assert p + tail == tail;
      assert p + r[0] == r[0];
      assert r == [r[0]] + r[1..];
    }
  }

  /** Joining with a separator that no part contains can be undone by
      splitting: the separator keeps the parts apart. */
  lemma {:induction false} SplitJoin(parts: seq<string>, c: char)
    requires |parts| > 0
    requires forall i :: 0 <= i < |parts| ==> c !in parts[i]
    ensures Split(Join(parts, [c]), c) == parts
    decreases |parts|
  {
    if |parts| == 1 {
      SplitPrefix(parts[0], [], c);
      assert Split([], c) == [[]];
      assert parts[0] + [] == parts[0];
      assert parts == [parts[0]];
    } else {
      var j := Join(parts[1..], [c]);
      assert Join(parts, [c]) == parts[0] + ([c] + j);
      SplitPrefix(parts[0], [c] + j, c);
      assert ([c] + j)[1..] == j;
      assert Split([c] + j, c) == [[]] + Split(j, c);
      SplitJoin(parts[1..], c);
      assert parts[0] + [] == parts[0];
      assert parts == [parts[0]] + parts[1..];
    }
  }

  /** Joining ASCII parts with an ASCII separator gives ASCII text. */
  lemma {:induction false} JoinAscii(parts: seq<string>, sep: string)
    requires IsAscii(sep)
    requires forall i :: 0 <= i < |parts| ==> IsAscii(parts[i])
    ensures IsAscii(Join(parts, sep))
    decreases |parts|
  {
    if |parts| > 1 {
      JoinAscii(parts[1..], sep);
      var j := Join(parts[1..], sep);
      var r := parts[0] + sep + j;
      forall i | 0 <= i < |r|
        ensures (r[i] as int) < 0x80
      {
        if i < |parts[0]| {
          assert r[i] == parts[0][i];
        } else if i < |parts[0]| + |sep| {
          assert r[i] == sep[i - |parts[0]|];
        } else {
          assert r[i] == j[i - |parts[0]| - |sep|];
        }
      }
    }
  }
}

=== FILE: wrappers.dfy ===
/** Failure-carrying datatypes, and the `min` of two integers, shared by
    the whole model. */
module Wrappers {

  /** An optional value. In the model `None` also stands for the two
      "no value" outcomes of the program: a Rust panic while building a
      string, and an f64 NaN while ranking. */
  datatype Option<+T> = None | Some(value: T)

  /** A value or an error. */
  datatype Result<+T, +E> = Ok(value: T) | Err(error: E)

  /** `std::cmp::min` on integers. */
  function Min(a: int, b: int): int
  {
    if a <= b then a else b
  }
}
